=== FILE: README.md ===
# Resilient unary calls and the mTLS channel decision

This project models two independent pieces of an RPC client runtime (gax-java) and proves
properties of them in Dafny.

1. **The retrying unary call.** One call is made of attempts. Each attempt returns a value
   or throws. A failure is classified into a canonical status code and a typed
   `ApiException`. A failure whose code is retryable is retried after a scheduled delay,
   as long as the attempt limit (`maxAttempts`, 0 meaning unlimited) and the total timeout
   allow. Attempts come from a scripted sequence of outcomes whose last outcome repeats
   for ever, as a stubbed mock answers. Time is a fake clock in whole milliseconds. It
   moves only when a retry delay is scheduled, and by exactly that delay.
2. **The mTLS channel decision.** A transport channel is built from a provider's
   `useClientCertificate` flag and its key-store lookup. The lookup gives a store,
   nothing, or an I/O failure. The channel is mTLS exactly when it holds an mTLS object
   (an SSL context for HTTP/JSON, an HTTP transport for gRPC). A lookup failure
   propagates unchanged, and then no channel is built.

Modules, leaves first: `Wrappers` (Option, Result), `Strings` (substring tests on opaque
messages), `StatusCodes` (canonical codes, their names and HTTP
statuses), `Errors` (failures, `ApiException`, the classifier), `Settings` (retry settings
and the per-call attempt state), `Retrying` (the attempt loop), `RetryProperties`
(all-inputs lemmas), `RetryScenarios` (the test scenarios), `Mtls` and `MtlsScenarios`.

Decisions the model makes where the tests leave room:

- **Total-timeout check.** A retryable failure is retried only while the clock has not
  reached the total timeout (`elapsed < totalTimeout`) and the next attempt would still
  start within it (`elapsed + delay <= totalTimeout`). The first half makes a zero total
  timeout end every call at its first failure. The second half is what the huge-delay
  scenario (`retryTotalTimeoutExceeded`, a 2^31-1 ms delay against a 10 ms budget) is
  named for: `HugeDelayExhaustsBudget` shows that it alone ends that call, even for a
  retryable failure.
  The delay judged is the one then due, which is below the cap while delays still grow:
  `RetryProperties.DoublingRetriesWhileDueDelayFits` shows delays doubling from 1 ms to
  an 8 ms cap under a 10 ms budget start attempts at 0, 1, 3 and 7 ms; the failure
  surfaces only at 7 ms, where the 8 ms delay then due would overrun the budget.
- **Attempt limit.** After the k-th attempt fails, the call stops when
  `maxAttempts > 0 && k >= maxAttempts`. So `maxAttempts = 2` gives exactly two attempts.
- **Retry eligibility.** A failure is retried when its canonical code is in the
  retryable set. The same rule covers HTTP errors, API exceptions that pass through, and
  plain runtime failures (classified UNKNOWN). The `ApiException`s the tests build also
  carry a `retryable` flag (the `false` at RetryingTest.java:149 and :246). The model
  does not read that flag. On every scenario the flag and the code-based rule agree.
- **Delays.** The first delay is `initialRetryDelay`. Each later delay is the previous
  uncapped delay times `retryDelayMultiplier`, and every scheduled delay is capped at
  `maxRetryDelay`. The attempt timeout grows by its own multiplier and has its own cap.
  The two caps are independent.
- **HTTP classification.** An HTTP error's code follows the HTTP mapping published with
  google.rpc.Code. Where several codes share a status (400, 409, 500), the first code
  whose name occurs in the error's detail message (the body given with `setMessage`) is
  chosen, in the order FAILED_PRECONDITION before OUT_OF_RANGE, and DATA_LOSS before
  UNKNOWN. Otherwise the status's default code is used.
  An HTTP status with no canonical meaning classifies as UNKNOWN. The tests pin three
  rows: 503 gives UNAVAILABLE, 400 naming FAILED_PRECONDITION gives FAILED_PRECONDITION,
  and 500 naming UNKNOWN gives UNKNOWN. The 409 rule (ALREADY_EXISTS when named, else
  ABORTED, proved over all messages by `Errors.ConflictRule`) comes from that mapping
  alone and has no counterpart in these tests.
- **Typed-error message.** The typed error built from an HTTP error takes the HTTP
  status message as its message: a 503 built with status message "Unavailable" surfaces
  with message "Unavailable" (RetryingTest.java:267 and :283), and a 400 built with
  status message FAILED_PRECONDITION surfaces with a message naming it (:306 and :324).
  The typed error built from any other failure has that failure's `toString()` as its
  message: the class name, `": "`, and the message (:332 and :343), or the class name
  alone when the failure has no message (`Errors.ClassifyMessageless`). Either way the
  failure itself is kept as the cause. An HTTP error built without `setMessage` has an
  empty detail message.
- **Default settings.** A call configured with retryable codes only gets all-zero retry
  settings, with multipliers of 1. Its total timeout is zero, so it never retries
  (`DefaultSettingsNeverRetry`).

## Model

| member | source | states |
|---|---|---|
| `Errors.Classify` | gax-httpjson/src/test/java/com/google/api/gax/httpjson/RetryingTest.java:262-345 | an API exception passes through as the very same value; any other failure becomes a typed error whose cause is that failure; an HTTP error gets the code `CodeFromHttp` selects from its status and detail message, keeps its status as transport code, and is described by its status message; a runtime failure is UNKNOWN with transport code 500, described by its string form, which starts with its class name and, when it has a message, contains every substring of that message |
| `Errors.CodeFromHttp` | gax-httpjson/src/test/java/com/google/api/gax/httpjson/RetryingTest.java:74-85 | for a known HTTP status the code is one whose HTTP status is that status; an unknown status gives UNKNOWN; the code differs from the status's default exactly when the message names one of the codes sharing the status, and then the chosen code is named |
| `Errors.FirstNamedIsFirst` | gax-httpjson/src/test/java/com/google/api/gax/httpjson/RetryingTest.java:290-308 | a named code with no named code before it in the lookup order is the one chosen |
| `Errors.BadRequestRule` | gax-httpjson/src/test/java/com/google/api/gax/httpjson/RetryingTest.java:303-309 | for every message, HTTP 400 is FAILED_PRECONDITION when that is named, else OUT_OF_RANGE when named, else INVALID_ARGUMENT |
| `Errors.ServerErrorRule` | gax-httpjson/src/test/java/com/google/api/gax/httpjson/RetryingTest.java:199-204 | for every message, HTTP 500 is DATA_LOSS when named, else UNKNOWN when named, else INTERNAL |
| `Errors.CodeFromHttpRoundTrip` | gax-httpjson/src/test/java/com/google/api/gax/httpjson/RetryingTest.java:303-309 | every non-OK code, sent as its own HTTP status with its name as the reason, classifies back to itself |
| `Errors.ClassifyIdempotent` | gax-httpjson/src/test/java/com/google/api/gax/httpjson/RetryingTest.java:241-258 | re-classifying a classified failure gives the same typed error |
| `Settings.NextDelay` | gax-httpjson/src/test/java/com/google/api/gax/httpjson/RetryingTest.java:89-91 | the scheduled delay is never above the cap and, in a reachable state, never below the initial delay |
| `Settings.Advance` | gax-httpjson/src/test/java/com/google/api/gax/httpjson/RetryingTest.java:87-96 | the next attempt's state counts one more attempt, has moved the clock by exactly the scheduled delay, multiplies the delay by its multiplier and the attempt timeout by its own, capped; while the budget allows a retry, every state reached keeps delays and attempt timeouts within their bounds and the clock within the total timeout |
| `Settings.DelayAfter` | gax-httpjson/src/test/java/com/google/api/gax/httpjson/RetryingTest.java:87-96 | after k backoff steps the uncapped delay is the delay times multiplier^k |
| `Settings.TimeoutAfter` | gax-httpjson/src/test/java/com/google/api/gax/httpjson/RetryingTest.java:87-96 | after k backoff steps the attempt timeout is the timeout times multiplier^k, capped once: capping at every step equals capping at the end |
| `Settings.BackoffSchedule` | gax-httpjson/src/test/java/com/google/api/gax/httpjson/RetryingTest.java:87-96 | the delay before retry k is min(initialRetryDelay * retryDelayMultiplier^k, maxRetryDelay), and attempt k carries min(initialRpcTimeout * rpcTimeoutMultiplier^k, maxRpcTimeout) |
| `Settings.Initial` | gax-httpjson/src/test/java/com/google/api/gax/httpjson/RetryingTest.java:98-101 | the first attempt starts at clock 0 with no attempt made, the initial delay and the initial attempt timeout, in a state consistent with the settings |
| `Retrying.LastAnswerRepeats` | gax-httpjson/src/test/java/com/google/api/gax/httpjson/RetryingTest.java:269-270 | every answer of the stub is a scripted outcome, and once the script is used up the stub keeps giving its last outcome |
| `Retrying.Remaining` | gax-httpjson/src/test/java/com/google/api/gax/httpjson/RetryingTest.java:189-194 | a later call on the same stub sees exactly the outcomes after those already consumed |
| `Retrying.Run` | gax-httpjson/src/test/java/com/google/api/gax/httpjson/RetryingTest.java:98-133 | one start time and one attempt timeout per attempt; never more attempts than `maxAttempts`; no attempt starts after the total timeout; consecutive attempts are one delay apart, between initial and capped delay; attempt timeouts stay within their bounds; attempt i starts at the clock and carries the timeout of the state i backoff steps on; all attempts but the last failed retryably and were retried only while the budget of their state was not spent; the result is the last attempt's value or its classified failure; a retryable failure is surfaced only when the budget of the last attempt's state is spent: the attempt limit is reached, the clock has reached the total timeout, or the delay then due, not merely the capped one, would start the next attempt after it |
| `Retrying.Call` | gax-httpjson/src/test/java/com/google/api/gax/httpjson/RetryingTest.java:128-132 | the same, from the first attempt at clock 0: consecutive attempts are one delay apart, attempt i follows the backoff schedule from the initial state, every earlier attempt was retried only while the budget of its state was not spent, and a retryable failure is surfaced only when the budget of the state the backoff schedule reaches at the last attempt is spent, judged with the delay then due |
| `Retrying.TerminatesAfterRetry` | gax-httpjson/src/test/java/com/google/api/gax/httpjson/RetryingTest.java:275-276 | a retry keeps the call's termination argument: limited attempts, a zero total timeout, a positive delay, or a stopping outcome still ahead |
| `Retrying.RetryKeepsSchedule` | gax-httpjson/src/test/java/com/google/api/gax/httpjson/RetryingTest.java:119-133 | a failed attempt followed by the rest of the call one backoff step later follows the backoff schedule |
| `Retrying.RetryKeepsTiming` | gax-httpjson/src/test/java/com/google/api/gax/httpjson/RetryingTest.java:119-133 | a failed attempt within budget followed by the rest of the call, one scheduled delay later, is itself a well-timed trace |
| `Retrying.RetryKeepsExplanation` | gax-httpjson/src/test/java/com/google/api/gax/httpjson/RetryingTest.java:119-133 | a retryable failed attempt followed by the rest of the call is explained by the script: the same last attempt and the same result |
| `RetryProperties.RetriesUntilSuccessFrom` | gax-httpjson/src/test/java/com/google/api/gax/httpjson/RetryingTest.java:119-133 | from any state, k retryable failures then a success, within the attempt limit and time budget, return that success after exactly k + 1 attempts |
| `RetryProperties.SucceedsAfterRetries` | gax-httpjson/src/test/java/com/google/api/gax/httpjson/RetryingTest.java:119-133 | retryable failures followed by a success, within budget, return the success after one attempt more than there were failures |
| `RetryProperties.StopsAtMaxAttemptsFrom` | gax-httpjson/src/test/java/com/google/api/gax/httpjson/RetryingTest.java:166-179 | from any state, retryable failures up to the limit end the call at exactly `maxAttempts` attempts with the last failure |
| `RetryProperties.FailsAfterMaxAttempts` | gax-httpjson/src/test/java/com/google/api/gax/httpjson/RetryingTest.java:166-179 | with `maxAttempts = N` and N retryable failures within the time budget, exactly N attempts, then the N-th failure classified, whatever follows in the script |
| `RetryProperties.NonRetryableSurfacesAtOnce` | gax-httpjson/src/test/java/com/google/api/gax/httpjson/RetryingTest.java:235-260 | a non-retryable first failure ends the call on attempt 1; an API exception is surfaced as the very same value, and any other failure is kept as the cause |
| `RetryProperties.TimeLeftAfterRetry` | gax-httpjson/src/test/java/com/google/api/gax/httpjson/RetryingTest.java:119-133 | when time is left and more than one retry fits in the total timeout, time is still left after the first retry |
| `RetryProperties.ZeroBudgetSurfacesAtOnce` | gax-httpjson/src/test/java/com/google/api/gax/httpjson/RetryingTest.java:312-315 | with a zero total timeout the first failure ends the call, whatever its code |
| `RetryProperties.CallFollowsBackoff` | gax-httpjson/src/test/java/com/google/api/gax/httpjson/RetryingTest.java:87-96 | attempt i of every call carries min(initialRpcTimeout * rpcTimeoutMultiplier^i, maxRpcTimeout) and starts min(initialRetryDelay * retryDelayMultiplier^(i-1), maxRetryDelay) after attempt i-1 |
| `RetryProperties.AttemptsBoundedByTime` | gax-httpjson/src/test/java/com/google/api/gax/httpjson/RetryingTest.java:262-285 | (attempts - 1) times the initial delay never exceeds the total timeout, so a call against a permanent failure ends |
| `RetryProperties.KeepsFailingUntilTimeout` | gax-httpjson/src/test/java/com/google/api/gax/httpjson/RetryingTest.java:262-285 | a permanent retryable failure with fixed delay d and no attempt limit is attempted exactly totalTimeout / d + 1 times, then surfaced classified |
| `RetryProperties.ReturnsAtOnce` | gax-httpjson/src/test/java/com/google/api/gax/httpjson/RetryingTest.java:191-195 | a first attempt that returns ends the call with its value after one attempt |
| `RetryProperties.FixedDelaySucceeds` | gax-httpjson/src/test/java/com/google/api/gax/httpjson/RetryingTest.java:121-132 | with a fixed delay d, k retryable failures then a value return that value after k + 1 attempts whenever k * d fits in the total timeout and the attempt limit allows |
| `RetryProperties.FixedDelayFailsAtMaxAttempts` | gax-httpjson/src/test/java/com/google/api/gax/httpjson/RetryingTest.java:166-179 | with a fixed delay d and `maxAttempts = N`, N retryable failures whose retries fit in the total timeout end in the N-th failure after N attempts |
| `RetryProperties.FixedDelayElapsed` | gax-httpjson/src/test/java/com/google/api/gax/httpjson/RetryingTest.java:89-91 | with a delay that neither grows nor is capped, k retries move the clock by exactly k delays |
| `RetryScenarios.RetryScenario` | gax-httpjson/src/test/java/com/google/api/gax/httpjson/RetryingTest.java:119-133 | three 503 failures then 2 with UNAVAILABLE retryable return 2 on the fourth attempt |
| `RetryScenarios.RetryTotalTimeoutExceededScenario` | gax-httpjson/src/test/java/com/google/api/gax/httpjson/RetryingTest.java:135-164 | the FAILED_PRECONDITION API exception under a 2^31-1 ms delay surfaces as itself |
| `RetryScenarios.HugeDelayExhaustsBudget` | gax-httpjson/src/test/java/com/google/api/gax/httpjson/RetryingTest.java:154-159 | under that delay even a retryable 503 ends the call on attempt 1, because of the total timeout |
| `RetryScenarios.RetryMaxAttemptsExceededScenario` | gax-httpjson/src/test/java/com/google/api/gax/httpjson/RetryingTest.java:166-179 | with `maxAttempts = 2`, two 503 failures end the call in an error after exactly 2 attempts, though 2 would come next |
| `RetryScenarios.RetryWithinMaxAttemptsScenario` | gax-httpjson/src/test/java/com/google/api/gax/httpjson/RetryingTest.java:181-195 | with `maxAttempts = 3`, two failures then 2 return 2 after 3 attempts, and a second call on the same stub returns 2 |
| `RetryScenarios.RetryOnStatusUnknownScenario` | gax-httpjson/src/test/java/com/google/api/gax/httpjson/RetryingTest.java:197-215 | three HTTP 500 "UNKNOWN" failures then 2 with UNKNOWN retryable return 2 |
| `RetryScenarios.RetryOnUnexpectedExceptionScenario` | gax-httpjson/src/test/java/com/google/api/gax/httpjson/RetryingTest.java:217-233 | a permanent runtime failure ends in an error whose cause is that very failure |
| `RetryScenarios.RetryNoRecoverScenario` | gax-httpjson/src/test/java/com/google/api/gax/httpjson/RetryingTest.java:235-260 | a FAILED_PRECONDITION API exception is surfaced as itself on attempt 1; the scripted 2 is never reached |
| `RetryScenarios.RetryKeepFailingScenario` | gax-httpjson/src/test/java/com/google/api/gax/httpjson/RetryingTest.java:262-285 | a permanent 503 with status message "Unavailable" and no detail message is attempted 6 times on the fast settings, then surfaced with a message containing "Unavailable" |
| `RetryScenarios.DefaultSettingsNeverRetry` | gax-httpjson/src/test/java/com/google/api/gax/httpjson/RetryingTest.java:312-315 | on the settings of a call configured with retryable codes only, any first failure ends the call after one attempt, retryable or not |
| `RetryScenarios.KnownStatusCodeScenario` | gax-httpjson/src/test/java/com/google/api/gax/httpjson/RetryingTest.java:287-326 | an HTTP 400 naming FAILED_PRECONDITION surfaces as FAILED_PRECONDITION with transport code 400 and a message containing FAILED_PRECONDITION |
| `RetryScenarios.UnknownStatusCodeScenario` | gax-httpjson/src/test/java/com/google/api/gax/httpjson/RetryingTest.java:328-345 | with no retryable codes, a runtime failure "unknown" surfaces as UNKNOWN with message exactly `java.lang.RuntimeException: unknown` |
| `RetryScenarios.ThreeRetriesThenTwo` | gax-httpjson/src/test/java/com/google/api/gax/httpjson/RetryingTest.java:121-132 | on the fast settings, any three retryable failures then 2 return 2 after 4 attempts |
| `RetryScenarios.TwoRetriesThenTwo` | gax-httpjson/src/test/java/com/google/api/gax/httpjson/RetryingTest.java:183-190 | with `maxAttempts = 3`, any two retryable failures then 2 return 2 after 3 attempts |
| `RetryScenarios.TwoAttemptsThenFail` | gax-httpjson/src/test/java/com/google/api/gax/httpjson/RetryingTest.java:168-178 | with `maxAttempts = 2`, any two retryable failures end in the second failure after 2 attempts |
| `Mtls.ClientKeyStore` | gax/src/test/java/com/google/api/gax/rpc/mtls/AbstractMtlsTransportChannelTest.java:52-56 | without a client certificate the key store is not consulted and there is none |
| `Mtls.BuildChannel` | gax/src/test/java/com/google/api/gax/rpc/mtls/AbstractMtlsTransportChannelTest.java:44-50 | building fails exactly when the certificate is requested and the lookup fails, with that very failure; otherwise the channel is mTLS exactly when the certificate is requested and a store is found, bound to that store |
| `Mtls.GetMtlsObjectFromTransportChannel` | gax/src/test/java/com/google/api/gax/rpc/mtls/AbstractMtlsTransportChannelTest.java:44-50 | the hook fails exactly on a requested certificate with a failing lookup, and otherwise returns an mTLS object exactly when the certificate is requested and a store is found |
| `Mtls.BuildChannelFollowsTable` | gax/src/test/java/com/google/api/gax/rpc/mtls/AbstractMtlsTransportChannelTest.java:52-84 | every provider matches exactly one row of the four-row decision table, and every transport's channel makes that row's decision |
| `Mtls.SameDecisionForEveryTransport` | gax/src/test/java/com/google/api/gax/rpc/mtls/AbstractMtlsTransportChannelTest.java:44-48 | HTTP/JSON and gRPC channels make the same decision and propagate the same failure |
| `Mtls.EndpointDoesNotDecide` | gax/src/test/java/com/google/api/gax/rpc/mtls/AbstractMtlsTransportChannelTest.java:53-70 | the endpoint policy and the endpoint string never change the channel built |
| `MtlsScenarios.NotUseClientCertificateScenario` | gax/src/test/java/com/google/api/gax/rpc/mtls/AbstractMtlsTransportChannelTest.java:52-56 | no client certificate: no mTLS object |
| `MtlsScenarios.UseClientCertificateScenario` | gax/src/test/java/com/google/api/gax/rpc/mtls/AbstractMtlsTransportChannelTest.java:58-64 | certificate requested and a store present: an mTLS object bound to that store |
| `MtlsScenarios.NoClientCertificateScenario` | gax/src/test/java/com/google/api/gax/rpc/mtls/AbstractMtlsTransportChannelTest.java:66-70 | certificate requested, no store: no mTLS object |
| `MtlsScenarios.GetKeyStoreThrowsScenario` | gax/src/test/java/com/google/api/gax/rpc/mtls/AbstractMtlsTransportChannelTest.java:72-84 | a failing lookup propagates with a message containing "getKeyStore throws exception", and no channel is built |

## Left out

- Retrying.Run, Retrying.Call: the call must come to an end. It requires an attempt limit, a zero total timeout, a positive initial delay, or a stopping outcome still ahead in the script. With no limit, a positive total timeout, a zero delay and a failure that is retryable for ever, the clock never moves and the loop never ends, so that configuration is excluded.
- Jitter: the randomised retry delay is not modelled; every scheduled delay is the capped delay itself.
- Futures, executors and threads: the asynchronous form of the call, `UncheckedExecutionException` wrapping and the scheduler's worker threads are concurrency; the model is the synchronous trace.
- Cancellation: it is not exercised by these tests.
- Per-attempt timeout: it is carried in the trace and bounded, but never enforced against an attempt. The tests do not observe it.
- Floating point: `Duration` values and `double` multipliers become whole milliseconds and whole multipliers of at least 1.
- Message handling: HTTP exception construction and the JSON error body are not modelled. Messages are opaque strings tested only for containment, and matching is case-sensitive.
- HTTP statuses with no canonical meaning classify as UNKNOWN in the model. The source's behaviour for them is not visible in these tests.
- Object identity: values are immutable, so "the same instance" (the `isSameInstanceAs` checks at RetryingTest.java:231 and :258) is stated as value equality; two equal but distinct Java objects are not told apart.
- The HTTP/JSON exception factory that turns an HTTP error into a typed error is not part of this model; its message rule (status message for HTTP errors, `toString()` otherwise) is the one the assertions at RetryingTest.java:283, :324 and :343 observe. A missing (null) status message is not modelled.
- The `retryable` flag of a pre-built `ApiException` is not an input to the retry decision (see above).
- mTLS internals: key-store creation, SSL context and HTTP transport construction, and the key-store password are opaque. The key store is a token.
- The endpoint-selection policy is a field that never affects the decision, and which endpoint it selects is not modelled.

=== FILE: errors.dfy ===
/** Failures raised by a single call attempt, the typed API exception the caller sees,
    and the classifier that turns the former into the latter. */
module Errors {
  import opened Wrappers
  import opened Strings
  import opened StatusCodes

  /** A canonical code paired with the raw transport status (the HTTP status for the
      HTTP/JSON transport). */
  datatype StatusCode = StatusCode(code: Code, transportCode: int)

  /** The typed error surfaced to callers; its variant is `statusCode.code`, and `cause`
      is the failure it was made from, kept as is. */
  datatype ApiException = ApiException(message: string, cause: Option<Throwable>, statusCode: StatusCode)

  /** What one attempt can fail with. Immutable values stand for Java objects, so "the
      same instance" is value equality here. */
  datatype Throwable =
      /** `message` is the detail message given with `setMessage` (the error body), empty
          when none was given. */
    | HttpResponseException(httpStatus: int, statusMessage: string, message: string)
    | ApiError(exception: ApiException)
      /** `givenMessage` is `None` for a failure built without a message. */
    | RuntimeFailure(className: string, givenMessage: Option<string>)

  /** The status code an HTTP/JSON exception built from a bare canonical code carries:
      the code with its own HTTP status as transport code. */
  function StatusCodeOf(c: Code): (r: StatusCode)
    ensures r.code == c && r.transportCode in KnownHttpStatuses + {200}
  {
    StatusCode(c, HttpStatusOf(c))
  }

  /** The codes that share an HTTP status with others and are therefore picked by
      finding their name in the message, in the order they are looked for. */
  function ReasonCodes(httpStatus: int): (r: seq<Code>)
    ensures forall i :: 0 <= i < |r| ==> HttpStatusOf(r[i]) == httpStatus
  {
    if httpStatus == 400 then [FailedPrecondition, OutOfRange]
    else if httpStatus == 409 then [AlreadyExists]
    else if httpStatus == 500 then [DataLoss, Unknown]
    else []
  }

  /** The code an HTTP status means when no reason in the message selects another one. */
  function DefaultCode(httpStatus: int): (r: Code)
    ensures httpStatus in KnownHttpStatuses ==> HttpStatusOf(r) == httpStatus
  {
    if httpStatus == 400 then InvalidArgument
    else if httpStatus == 401 then Unauthenticated
    else if httpStatus == 403 then PermissionDenied
    else if httpStatus == 404 then NotFound
    else if httpStatus == 409 then Aborted
    else if httpStatus == 429 then ResourceExhausted
    else if httpStatus == 499 then Cancelled
    else if httpStatus == 500 then Internal
    else if httpStatus == 501 then Unimplemented
    else if httpStatus == 503 then Unavailable
    else if httpStatus == 504 then DeadlineExceeded
    else Unknown
  }

  /** The first code of `codes` whose name occurs in `message`. */
  function FirstNamed(codes: seq<Code>, message: string): (r: Option<Code>)
    ensures r.Some? ==> r.value in codes && Contains(message, Name(r.value))
    ensures r.None? ==> forall i :: 0 <= i < |codes| ==> !Contains(message, Name(codes[i]))
  {
    if |codes| == 0 then None
    else if Contains(message, Name(codes[0])) then Some(codes[0])
    else
      var rest := FirstNamed(codes[1..], message);
      assert forall i :: 1 <= i < |codes| ==> codes[i] == codes[1..][i - 1];
      rest
  }

  /** `FirstNamed` picks the earliest code named in the message: a named code with no
      named code before it is the one returned. */
  lemma {:induction false} FirstNamedIsFirst(codes: seq<Code>, message: string, i: nat)
    requires i < |codes| && Contains(message, Name(codes[i]))
    requires forall j :: 0 <= j < i ==> !Contains(message, Name(codes[j]))
    ensures FirstNamed(codes, message) == Some(codes[i])
    decreases i
  {
    if i > 0 {
      assert !Contains(message, Name(codes[0]));
      assert codes[1..][i - 1] == codes[i];
      assert forall j :: 0 <= j < i - 1 ==> codes[1..][j] == codes[j + 1];
      FirstNamedIsFirst(codes[1..], message, i - 1);
    }
  }

  /** Some code that shares `httpStatus` with others is named in `message`. */
  predicate NamesReason(httpStatus: int, message: string) {
    exists c :: c in ReasonCodes(httpStatus) && Contains(message, Name(c))
  }

  /** The canonical code of an HTTP error: a reason named in the message wins among the
      codes sharing the status, otherwise the status's default code; an HTTP status with
      no canonical meaning is UNKNOWN. */
  function CodeFromHttp(httpStatus: int, message: string): (r: Code)
    ensures httpStatus in KnownHttpStatuses ==> HttpStatusOf(r) == httpStatus
    ensures httpStatus !in KnownHttpStatuses ==> r == Unknown
    ensures r != DefaultCode(httpStatus) <==> NamesReason(httpStatus, message)
    ensures r != DefaultCode(httpStatus) ==> Contains(message, Name(r))
  {
    DefaultIsNoReason(httpStatus);
    match FirstNamed(ReasonCodes(httpStatus), message)
    case Some(c) => c
    case None => DefaultCode(httpStatus)
  }

  /** No status's default code is one of its reason codes. */
  lemma DefaultIsNoReason(httpStatus: int)
    ensures DefaultCode(httpStatus) !in ReasonCodes(httpStatus)
  {
  }

  /** The 400 rule for every message: FAILED_PRECONDITION when named, else OUT_OF_RANGE
      when named, else INVALID_ARGUMENT. */
  lemma BadRequestRule(message: string)
    ensures Contains(message, "FAILED_PRECONDITION") ==> CodeFromHttp(400, message) == FailedPrecondition
    ensures !Contains(message, "FAILED_PRECONDITION") && Contains(message, "OUT_OF_RANGE") ==>
              CodeFromHttp(400, message) == OutOfRange
    ensures !Contains(message, "FAILED_PRECONDITION") && !Contains(message, "OUT_OF_RANGE") ==>
              CodeFromHttp(400, message) == InvalidArgument
  {
    var codes := ReasonCodes(400);
    assert codes == [FailedPrecondition, OutOfRange];
    if Contains(message, "FAILED_PRECONDITION") {
      FirstNamedIsFirst(codes, message, 0);
    } else if Contains(message, "OUT_OF_RANGE") {
      FirstNamedIsFirst(codes, message, 1);
    }
  }

  /** The 409 rule for every message: ALREADY_EXISTS when named, else ABORTED. */
  lemma ConflictRule(message: string)
    ensures Contains(message, "ALREADY_EXISTS") ==> CodeFromHttp(409, message) == AlreadyExists
    ensures !Contains(message, "ALREADY_EXISTS") ==> CodeFromHttp(409, message) == Aborted
  {
    var codes := ReasonCodes(409);
    assert codes == [AlreadyExists];
    if Contains(message, "ALREADY_EXISTS") {
      FirstNamedIsFirst(codes, message, 0);
    }
  }

  /** The 500 rule for every message: DATA_LOSS when named, else UNKNOWN when named,
      else INTERNAL. */
  lemma ServerErrorRule(message: string)
    ensures Contains(message, "DATA_LOSS") ==> CodeFromHttp(500, message) == DataLoss
    ensures !Contains(message, "DATA_LOSS") && Contains(message, "UNKNOWN") ==>
              CodeFromHttp(500, message) == Unknown
    ensures !Contains(message, "DATA_LOSS") && !Contains(message, "UNKNOWN") ==>
              CodeFromHttp(500, message) == Internal
  {
    var codes := ReasonCodes(500);
    assert codes == [DataLoss, Unknown];
    if Contains(message, "DATA_LOSS") {
      FirstNamedIsFirst(codes, message, 0);
    } else if Contains(message, "UNKNOWN") {
      FirstNamedIsFirst(codes, message, 1);
    }
  }

  /** Java's `Throwable.toString()` of a plain runtime failure: the class name, then a
      colon and the message when there is one. */
  function Describe(className: string, message: Option<string>): string {
    match message
    case None => className
    case Some(m) => className + ": " + m
  }

  /** Maps an attempt's failure to the typed exception the caller sees. An API exception
      passes through untouched. An HTTP error gets the code its status and detail message
      select, keeps its status as transport code, and is described by its status
      message. Any other failure is UNKNOWN and described by its own string form. A
      wrapped failure is kept as the cause. */
  function Classify(t: Throwable): (r: ApiException)
    ensures t.ApiError? ==> r == t.exception
    ensures !t.ApiError? ==> r.cause == Some(t)
    ensures t.HttpResponseException? ==>
              && r.message == t.statusMessage
              && r.statusCode == StatusCode(CodeFromHttp(t.httpStatus, t.message), t.httpStatus)
              && (t.httpStatus in KnownHttpStatuses ==> HttpStatusOf(r.statusCode.code) == t.httpStatus)
    ensures t.RuntimeFailure? ==>
              && r.statusCode == StatusCode(Unknown, 500)
              && r.message == Describe(t.className, t.givenMessage)
              && StartsWith(r.message, t.className)
              && (t.givenMessage.Some? ==> forall x :: Contains(t.givenMessage.value, x) ==> Contains(r.message, x))
  {
    match t
    case HttpResponseException(status, statusMessage, m) =>
      ApiException(statusMessage, Some(t), StatusCode(CodeFromHttp(status, m), status))
    case ApiError(e) => e
    case RuntimeFailure(className, m) =>
      DescribeKeepsMessage(className, m);
      ApiException(Describe(className, m), Some(t), StatusCodeOf(Unknown))
  }

  /** A runtime failure's description starts with its class name, and whatever occurs
      in its message occurs in the description. */
  lemma DescribeKeepsMessage(className: string, message: Option<string>)
    ensures StartsWith(Describe(className, message), className)
    ensures message.Some? ==> forall x :: Contains(message.value, x) ==> Contains(Describe(className, message), x)
  {
    assert Describe(className, message)[..|className|] == className;
    if message.Some? {
      forall x | Contains(message.value, x)
        ensures Contains(Describe(className, message), x)
      {
        ContainsInSuffix(Describe(className, message), message.value, x);
      }
    }
  }

  /** A runtime failure built without a message is described by its class name alone,
      and one built with a message by more than its class name. */
  lemma ClassifyMessageless(className: string, message: Option<string>)
    ensures message.None? <==> Classify(RuntimeFailure(className, message)).message == className
  {
  }

  /** An occurrence inside a suffix is an occurrence in the whole. */
  lemma ContainsInSuffix(s: string, suffix: string, x: string)
    requires |suffix| <= |s| && s[|s| - |suffix|..] == suffix
    requires Contains(suffix, x)
    ensures Contains(s, x)
  {
    var i := ContainsWitness(suffix, x);
    var k := |s| - |suffix|;
    assert s[k + i..k + i + |x|] == suffix[i..i + |x|];
    ContainsAt(s, x, k + i);
  }

  /** A longer string never occurs in a shorter one. */
  lemma NotContainsLonger(s: string, t: string)
    requires |s| < |t|
    ensures !Contains(s, t)
  {
    if Contains(s, t) {
      ContainsLength(s, t);
    }
  }

  /** Classification is a round trip from canonical codes: an HTTP error carrying a code's
      own HTTP status and naming the code classifies back to that code. */
  lemma {:induction false} CodeFromHttpRoundTrip(c: Code)
    requires c != Ok
    ensures CodeFromHttp(HttpStatusOf(c), Name(c)) == c
  {
    var status := HttpStatusOf(c);
    if status == 400 {
      RoundTripBadRequest(c);
    } else if status == 409 {
      RoundTripConflict(c);
    } else if status == 500 {
      RoundTripServerError(c);
    } else {
      assert ReasonCodes(status) == [];
    }
  }

  /** The three codes of HTTP 400 are told apart by the reason in the message. */
  lemma RoundTripBadRequest(c: Code)
    requires c == FailedPrecondition || c == OutOfRange || c == InvalidArgument
    ensures CodeFromHttp(400, Name(c)) == c
  {
    if c == FailedPrecondition {
      var m := Name(c);
      BadRequestRule(m);
      ContainsSelf(m);
    } else if c == OutOfRange {
      RoundTripOutOfRange(c);
    } else {
      RoundTripInvalidArgument(c);
    }
  }

  /** OUT_OF_RANGE does not contain FAILED_PRECONDITION, so 400 picks it. */
  lemma RoundTripOutOfRange(c: Code)
    requires c == OutOfRange
    ensures CodeFromHttp(400, Name(c)) == c
  {
    var m := Name(c);
    NotContainsLonger(m, "FAILED_PRECONDITION");
    ContainsSelf(m);
    BadRequestRule(m);
  }

  /** INVALID_ARGUMENT names neither reason of 400, so it is the fallback. */
  lemma RoundTripInvalidArgument(c: Code)
    requires c == InvalidArgument
    ensures CodeFromHttp(400, Name(c)) == c
  {
    var m := Name(c);
    NotContainsLonger(m, "FAILED_PRECONDITION");
    NotContainsByFirstChar(m, "OUT_OF_RANGE");
    BadRequestRule(m);
  }

  /** The two codes of HTTP 409 are told apart by the reason in the message. */
  lemma RoundTripConflict(c: Code)
    requires c == AlreadyExists || c == Aborted
    ensures CodeFromHttp(409, Name(c)) == c
  {
    ConflictRule(Name(c));
    if c == AlreadyExists {
      ContainsSelf(Name(c));
    } else {
      NotContainsLonger(Name(c), "ALREADY_EXISTS");
    }
  }

  /** The three codes of HTTP 500 are told apart by the reason in the message. */
  lemma RoundTripServerError(c: Code)
    requires c == DataLoss || c == Unknown || c == Internal
    ensures CodeFromHttp(500, Name(c)) == c
  {
    ServerErrorRule(Name(c));
    if c == DataLoss {
      ContainsSelf(Name(c));
    } else if c == Unknown {
      NotContainsLonger(Name(c), "DATA_LOSS");
      ContainsSelf(Name(c));
    } else {
      NotContainsLonger(Name(c), "DATA_LOSS");
      NotContainsByFirstChar(Name(c), "UNKNOWN");
    }
  }

  /** Classifying an already classified failure changes nothing. */
  lemma ClassifyIdempotent(t: Throwable)
    ensures Classify(ApiError(Classify(t))) == Classify(t)
  {
  }
}

=== FILE: mtls.dfy ===
/** The mutual-TLS channel decision: whether a transport channel is built with a client
    certificate, decided once per channel from the provider's settings and key store. */
module Mtls {
  import opened Wrappers

  /** A client key store, opaque: only its identity matters. */
  datatype KeyStore = KeyStore(id: nat)

  /** The failure a key-store lookup can raise. */
  datatype IOException = IOException(message: string)

  /** Which endpoint a client targets; it never changes whether a certificate is used. */
  datatype UseMtlsEndpoint = Never | Auto | Always

  /** What asking the provider for its key store gives: a store, nothing, or a failure. */
  datatype KeyStoreLookup = StoreFound(store: KeyStore) | NoStore | LookupFails(error: IOException)

  /** The certificate-availability settings a channel is built from. */
  datatype MtlsProvider = MtlsProvider(
    useClientCertificate: bool,
    useMtlsEndpoint: UseMtlsEndpoint,
    keyStore: KeyStoreLookup,
    endpoint: string)

  /** The transport variants that implement the decision. */
  datatype Transport = HttpJson | Grpc

  /** The transport-level artefact that carries the client certificate: an SSL context
      for HTTP/JSON channels, an HTTP transport for gRPC channels. */
  datatype MtlsObject = SslContext(store: KeyStore) | HttpTransport(store: KeyStore)

  /** A built channel; the mTLS object is absent for a plain channel. */
  datatype TransportChannel = TransportChannel(transport: Transport, mtlsObject: Option<MtlsObject>)

  /** A channel is mTLS exactly when it holds an mTLS object. */
  predicate IsMtls(c: TransportChannel) {
    c.mtlsObject.Some?
  }

  /** The key store the channel binds to. The provider is asked only when the client
      certificate is to be used; a failed lookup propagates as it is. */
  function ClientKeyStore(p: MtlsProvider): (r: Result<Option<KeyStore>, IOException>)
    ensures !p.useClientCertificate ==> r == Success(None)
  {
    if !p.useClientCertificate then Success(None)
    else
      match p.keyStore
      case StoreFound(k) => Success(Some(k))
      case NoStore => Success(None)
      case LookupFails(e) => Failure(e)
  }

  /** The mTLS object of each transport, bound to the key store. */
  function BindMtlsObject(transport: Transport, store: KeyStore): (m: MtlsObject)
    ensures m.store == store
  {
    match transport
    case HttpJson => SslContext(store)
    case Grpc => HttpTransport(store)
  }

  /** Builds a channel of the given transport: secure when a key store is available,
      plain otherwise, and no channel at all when the key-store lookup fails. */
  function BuildChannel(transport: Transport, p: MtlsProvider): (r: Result<TransportChannel, IOException>)
    ensures r.Failure? <==> p.useClientCertificate && p.keyStore.LookupFails?
    ensures r.Failure? ==> r.error == p.keyStore.error
    ensures r.Success? ==> r.value.transport == transport
    ensures r.Success? ==> (IsMtls(r.value) <==> p.useClientCertificate && p.keyStore.StoreFound?)
    ensures r.Success? && IsMtls(r.value) ==> r.value.mtlsObject.value.store == p.keyStore.store
  {
    match ClientKeyStore(p)
    case Failure(e) => Failure(e)
    case Success(None) => Success(TransportChannel(transport, None))
    case Success(Some(k)) => Success(TransportChannel(transport, Some(BindMtlsObject(transport, k))))
  }

  /** The hook each transport's channel test implements: the mTLS object of the built
      channel, absent for a plain channel, or the lookup failure. */
  function GetMtlsObjectFromTransportChannel(transport: Transport, p: MtlsProvider): (r: Result<Option<MtlsObject>, IOException>)
    ensures r.Failure? <==> p.useClientCertificate && p.keyStore.LookupFails?
    ensures r.Failure? ==> r.error == p.keyStore.error
    ensures r.Success? ==> (r.value.Some? <==> p.useClientCertificate && p.keyStore.StoreFound?)
  {
    match BuildChannel(transport, p)
    case Failure(e) => Failure(e)
    case Success(c) => Success(c.mtlsObject)
  }

  /** The decision table, as data: what a channel built from a provider is. */
  datatype Decision = Plain | Secure | Propagate
  datatype LookupKind = Present | Absent | Fails
  datatype TableRow = TableRow(useClientCertificate: bool, lookup: Option<LookupKind>, decision: Decision)

  /** The four rows; a row with no lookup kind matches any lookup. */
  const DecisionTable: seq<TableRow> := [
    TableRow(false, None, Plain),
    TableRow(true, Some(Fails), Propagate),
    TableRow(true, Some(Present), Secure),
    TableRow(true, Some(Absent), Plain)
  ]

  function KindOf(l: KeyStoreLookup): LookupKind {
    match l
    case StoreFound(_) => Present
    case NoStore => Absent
    case LookupFails(_) => Fails
  }

  predicate RowMatches(row: TableRow, p: MtlsProvider) {
    row.useClientCertificate == p.useClientCertificate
    && (row.lookup.None? || row.lookup.value == KindOf(p.keyStore))
  }

  /** What a built channel shows of the decision. */
  function DecisionOf(r: Result<TransportChannel, IOException>): Decision {
    match r
    case Failure(_) => Propagate
    case Success(c) => if IsMtls(c) then Secure else Plain
  }

  /** Every provider matches exactly one row of the table, and building a channel of
      any transport makes that row's decision. */
  lemma {:induction false} BuildChannelFollowsTable(transport: Transport, p: MtlsProvider)
    ensures exists i :: 0 <= i < |DecisionTable| && RowMatches(DecisionTable[i], p)
    ensures forall i :: 0 <= i < |DecisionTable| && RowMatches(DecisionTable[i], p) ==>
              DecisionOf(BuildChannel(transport, p)) == DecisionTable[i].decision
    ensures forall i, j :: 0 <= i < j < |DecisionTable| && RowMatches(DecisionTable[i], p) ==>
              !RowMatches(DecisionTable[j], p)
  {
    var i := if !p.useClientCertificate then 0
             else match p.keyStore
                  case LookupFails(_) => 1
                  case StoreFound(_) => 2
                  case NoStore => 3;
    assert RowMatches(DecisionTable[i], p);
  }

  /** The decision does not depend on the transport variant. */
  lemma SameDecisionForEveryTransport(p: MtlsProvider)
    ensures DecisionOf(BuildChannel(HttpJson, p)) == DecisionOf(BuildChannel(Grpc, p))
    ensures BuildChannel(HttpJson, p).Failure? ==> BuildChannel(HttpJson, p) == BuildChannel(Grpc, p)
  {
  }

  /** The endpoint policy and the endpoint select where a client connects, never whether
      its channel is mTLS. */
  lemma EndpointDoesNotDecide(transport: Transport, p: MtlsProvider, policy: UseMtlsEndpoint, endpoint: string)
    ensures BuildChannel(transport, p.(useMtlsEndpoint := policy, endpoint := endpoint)) == BuildChannel(transport, p)
  {
  }
}

=== FILE: mtls_scenarios.dfy ===
/** The four channel-decision scenarios every transport's channel test runs, with the
    fake provider they are built from. */
module MtlsScenarios {
  import opened Wrappers
  import opened Strings
  import opened Mtls

  /** The message of the fake provider's failing key-store lookup. */
  const GetKeyStoreFailure: string := "getKeyStore throws exception"

  /** The fake provider: a fixed key store (possibly none), or a lookup that fails when
      asked to. */
  function FakeMtlsProvider(
    useClientCertificate: bool, useMtlsEndpoint: UseMtlsEndpoint, keyStore: Option<KeyStore>,
    endpoint: string, throwOnGetKeyStore: bool): MtlsProvider
  {
    var lookup :=
      if throwOnGetKeyStore then LookupFails(IOException(GetKeyStoreFailure))
      else if keyStore.Some? then StoreFound(keyStore.value)
      else NoStore;
    MtlsProvider(useClientCertificate, useMtlsEndpoint, lookup, endpoint)
  }

  /** The test key store. */
  const TestKeyStore: KeyStore := KeyStore(1)

  /** Client certificate not requested: no mTLS object. */
  lemma NotUseClientCertificateScenario(transport: Transport)
    ensures GetMtlsObjectFromTransportChannel(transport, FakeMtlsProvider(false, Auto, None, "", false)) == Success(None)
  {
  }

  /** Client certificate requested and a key store available: an mTLS object bound to
      that store. */
  lemma UseClientCertificateScenario(transport: Transport)
    ensures var r := GetMtlsObjectFromTransportChannel(transport, FakeMtlsProvider(true, Auto, Some(TestKeyStore), "", false));
            r.Success? && r.value.Some? && r.value.value.store == TestKeyStore
  {
  }

  /** Client certificate requested but no key store: no mTLS object. */
  lemma NoClientCertificateScenario(transport: Transport)
    ensures GetMtlsObjectFromTransportChannel(transport, FakeMtlsProvider(true, Auto, None, "", false)) == Success(None)
  {
  }

  /** The key-store lookup fails: the failure propagates with its message, and no
      channel is built. */
  lemma GetKeyStoreThrowsScenario(transport: Transport)
    ensures var p := FakeMtlsProvider(true, Auto, None, "", true);
            && BuildChannel(transport, p).Failure?
            && GetMtlsObjectFromTransportChannel(transport, p).Failure?
            && Contains(GetMtlsObjectFromTransportChannel(transport, p).error.message, "getKeyStore throws exception")
  {
    ContainsSelf(GetKeyStoreFailure);
  }
}

=== FILE: retry_properties.dfy ===
/** What the resilient call promises for every configuration: success after retryable
    failures within budget, exactly `maxAttempts` attempts against a failure that does
    not recover, immediate surfacing of non-retryable failures, and termination within
    the total timeout. */
module RetryProperties {
  import opened Wrappers
  import opened StatusCodes
  import opened Errors
  import opened Settings
  import opened Retrying

  /** A script of the given failures followed by one success. */
  function FailuresThen(failures: seq<Throwable>, v: int): (script: seq<Outcome>)
    ensures |script| == |failures| + 1 && script[|failures|] == Returned(v)
    ensures forall i :: 0 <= i < |failures| ==> script[i] == Threw(failures[i])
  {
    seq(|failures|, i requires 0 <= i < |failures| => Threw(failures[i])) + [Returned(v)]
  }

  /** From any state: `k` retryable failures followed by a success, with the attempt
      limit and the total timeout leaving room for `k` retries, end in that success
      after exactly `k + 1` attempts. */
  lemma {:induction false} RetriesUntilSuccessFrom(
    s: RetrySettings, retryableCodes: set<Code>, script: seq<Outcome>, st: AttemptState, k: nat, v: int)
    requires s.Valid() && |script| > 0 && Consistent(s, st)
    requires st.attemptCount + k < |script|
    requires forall j :: st.attemptCount <= j < st.attemptCount + k ==> IsRetryableFailure(script[j], retryableCodes)
    requires script[st.attemptCount + k] == Returned(v)
    requires s.maxAttempts == 0 || st.attemptCount + k < s.maxAttempts
    requires After(s, st, k).elapsed <= s.totalTimeout
    requires k == 0 || st.elapsed < s.totalTimeout
    ensures Terminates(s, retryableCodes, script, st)
    ensures Run(s, retryableCodes, script, st).result == Success(v)
    ensures |Run(s, retryableCodes, script, st).starts| == k + 1
    decreases k
  {
    assert Stops(script[st.attemptCount + k], retryableCodes);
    if k > 0 {
      assert IsRetryableFailure(OutcomeAt(script, st.attemptCount), retryableCodes);
      var next := Advance(s, st);
      assert After(s, st, k) == After(s, next, k - 1);
      assert !BudgetExhausted(s, st);
      if k > 1 {
        TimeLeftAfterRetry(s, st, k);
      }
      RetriesUntilSuccessFrom(s, retryableCodes, script, next, k - 1, v);
    }
  }

  /** When time is left now and `k > 1` retries fit in the total timeout, time is still
      left after the first of them: either delays are zero and the clock stands still,
      or every delay is positive and the later retries still move it. */
  lemma TimeLeftAfterRetry(s: RetrySettings, st: AttemptState, k: nat)
    requires s.Valid() && Consistent(s, st) && k > 1
    requires st.elapsed < s.totalTimeout && After(s, st, k).elapsed <= s.totalTimeout
    ensures Advance(s, st).elapsed < s.totalTimeout
  {
    var next := Advance(s, st);
    if NextDelay(s, st) > 0 {
      MultiplyGrows(st.retryDelay, s.retryDelayMultiplier);
      assert NextDelay(s, next) > 0;
      var after := Advance(s, next);
      assert After(s, st, k) == After(s, after, k - 2);
    }
  }

  /** Retryable failures followed by a success, within budget, end in that success after
      one attempt more than there were failures. */
  lemma SucceedsAfterRetries(s: RetrySettings, retryableCodes: set<Code>, failures: seq<Throwable>, v: int)
    requires s.Valid()
    requires forall i :: 0 <= i < |failures| ==> IsRetryable(Classify(failures[i]), retryableCodes)
    requires s.maxAttempts == 0 || |failures| < s.maxAttempts
    requires After(s, Initial(s), |failures|).elapsed <= s.totalTimeout
    requires |failures| == 0 || s.totalTimeout > 0
    ensures Terminates(s, retryableCodes, FailuresThen(failures, v), Initial(s))
    ensures Call(s, retryableCodes, FailuresThen(failures, v)).result == Success(v)
    ensures |Call(s, retryableCodes, FailuresThen(failures, v)).starts| == |failures| + 1
  {
    var script := FailuresThen(failures, v);
    forall j | 0 <= j < |failures|
      ensures IsRetryableFailure(script[j], retryableCodes)
    {
      assert script[j] == Threw(failures[j]);
    }
    RetriesUntilSuccessFrom(s, retryableCodes, script, Initial(s), |failures|, v);
  }

  /** From any state: when every attempt up to the limit fails retryably and the total
      timeout leaves room for all of them, the call makes exactly `maxAttempts` attempts
      and surfaces the last failure. */
  lemma {:induction false} StopsAtMaxAttemptsFrom(
    s: RetrySettings, retryableCodes: set<Code>, script: seq<Outcome>, st: AttemptState)
    requires s.Valid() && |script| > 0 && Consistent(s, st) && s.maxAttempts > 0
    requires forall j :: st.attemptCount <= j < s.maxAttempts ==> IsRetryableFailure(OutcomeAt(script, j), retryableCodes)
    requires After(s, st, s.maxAttempts - 1 - st.attemptCount).elapsed <= s.totalTimeout
    requires st.attemptCount + 1 == s.maxAttempts || st.elapsed < s.totalTimeout
    ensures var o := OutcomeAt(script, s.maxAttempts - 1);
              o.Threw? && Run(s, retryableCodes, script, st).result == Failure(Classify(o.failure))
    ensures st.attemptCount + |Run(s, retryableCodes, script, st).starts| == s.maxAttempts
    decreases s.maxAttempts - st.attemptCount
  {
    assert IsRetryableFailure(OutcomeAt(script, st.attemptCount), retryableCodes);
    if st.attemptCount + 1 < s.maxAttempts {
      var next := Advance(s, st);
      assert After(s, st, s.maxAttempts - 1 - st.attemptCount) == After(s, next, s.maxAttempts - 1 - next.attemptCount);
      assert !BudgetExhausted(s, st);
      if next.attemptCount + 1 < s.maxAttempts {
        TimeLeftAfterRetry(s, st, s.maxAttempts - 1 - st.attemptCount);
      }
      StopsAtMaxAttemptsFrom(s, retryableCodes, script, next);
    }
  }

  /** With `maxAttempts = N`, a call whose first `N` attempts fail retryably within the
      total timeout makes exactly `N` attempts and surfaces the `N`-th failure, even
      when the next scripted outcome would have succeeded. */
  lemma FailsAfterMaxAttempts(s: RetrySettings, retryableCodes: set<Code>, script: seq<Outcome>)
    requires s.Valid() && |script| > 0 && s.maxAttempts > 0
    requires forall j :: 0 <= j < s.maxAttempts ==> IsRetryableFailure(OutcomeAt(script, j), retryableCodes)
    requires After(s, Initial(s), s.maxAttempts - 1).elapsed <= s.totalTimeout
    requires s.maxAttempts == 1 || s.totalTimeout > 0
    ensures Terminates(s, retryableCodes, script, Initial(s))
    ensures var o := OutcomeAt(script, s.maxAttempts - 1);
              o.Threw? && Call(s, retryableCodes, script).result == Failure(Classify(o.failure))
    ensures |Call(s, retryableCodes, script).starts| == s.maxAttempts
  {
    StopsAtMaxAttemptsFrom(s, retryableCodes, script, Initial(s));
  }

  /** With a fixed delay `d`, `k` retryable failures then a success return that success
      after `k + 1` attempts whenever `k * d` fits in the total timeout and `k` attempts
      leave room under the attempt limit. */
  lemma FixedDelaySucceeds(s: RetrySettings, retryableCodes: set<Code>, script: seq<Outcome>, k: nat, v: int)
    requires s.Valid() && s.retryDelayMultiplier == 1 && s.initialRetryDelay == s.maxRetryDelay
    requires k < |script| && script[k] == Returned(v)
    requires forall j :: 0 <= j < k ==> IsRetryableFailure(script[j], retryableCodes)
    requires s.maxAttempts == 0 || k < s.maxAttempts
    requires k * s.maxRetryDelay <= s.totalTimeout
    requires k == 0 || s.totalTimeout > 0
    ensures Terminates(s, retryableCodes, script, Initial(s))
    ensures Call(s, retryableCodes, script).result == Success(v)
    ensures |Call(s, retryableCodes, script).starts| == k + 1
  {
    FixedDelayElapsed(s, Initial(s), k);
    RetriesUntilSuccessFrom(s, retryableCodes, script, Initial(s), k, v);
  }

  /** With a fixed delay `d` and `maxAttempts = N`, `N` retryable failures whose retries
      fit in the total timeout end the call in the `N`-th failure after `N` attempts. */
  lemma FixedDelayFailsAtMaxAttempts(s: RetrySettings, retryableCodes: set<Code>, script: seq<Outcome>)
    requires s.Valid() && s.retryDelayMultiplier == 1 && s.initialRetryDelay == s.maxRetryDelay
    requires |script| > 0 && s.maxAttempts > 0
    requires forall j :: 0 <= j < s.maxAttempts ==> IsRetryableFailure(OutcomeAt(script, j), retryableCodes)
    requires (s.maxAttempts - 1) * s.maxRetryDelay <= s.totalTimeout
    requires s.maxAttempts == 1 || s.totalTimeout > 0
    ensures Terminates(s, retryableCodes, script, Initial(s))
    ensures var o := OutcomeAt(script, s.maxAttempts - 1);
              o.Threw? && Call(s, retryableCodes, script).result == Failure(Classify(o.failure))
    ensures |Call(s, retryableCodes, script).starts| == s.maxAttempts
  {
    FixedDelayElapsed(s, Initial(s), s.maxAttempts - 1);
    FailsAfterMaxAttempts(s, retryableCodes, script);
  }

  /** A failure that is not retryable is surfaced by the first attempt: an API exception
      as the very same value, any other failure as the cause of the typed error. */
  lemma NonRetryableSurfacesAtOnce(s: RetrySettings, retryableCodes: set<Code>, script: seq<Outcome>, t: Throwable)
    requires s.Valid() && |script| > 0 && script[0] == Threw(t)
    requires !IsRetryable(Classify(t), retryableCodes)
    ensures Terminates(s, retryableCodes, script, Initial(s))
    ensures Call(s, retryableCodes, script).result == Failure(Classify(t))
    ensures |Call(s, retryableCodes, script).starts| == 1
    ensures t.ApiError? ==> Call(s, retryableCodes, script).result.error == t.exception
    ensures !t.ApiError? ==> Call(s, retryableCodes, script).result.error.cause == Some(t)
  {
    assert Stops(script[0], retryableCodes);
  }

  /** A first attempt that returns ends the call with its value, with no retry. */
  lemma ReturnsAtOnce(s: RetrySettings, retryableCodes: set<Code>, script: seq<Outcome>, v: int)
    requires s.Valid() && |script| > 0 && OutcomeAt(script, 0) == Returned(v)
    ensures Terminates(s, retryableCodes, script, Initial(s))
    ensures Call(s, retryableCodes, script).result == Success(v)
    ensures |Call(s, retryableCodes, script).starts| == 1
  {
    assert Stops(script[0], retryableCodes);
  }

  /** With a zero total timeout the budget is spent before any retry: the first failure
      ends the call, whatever its code and whatever the other settings. */
  lemma ZeroBudgetSurfacesAtOnce(s: RetrySettings, retryableCodes: set<Code>, script: seq<Outcome>, t: Throwable)
    requires s.Valid() && |script| > 0 && script[0] == Threw(t) && s.totalTimeout == 0
    ensures Terminates(s, retryableCodes, script, Initial(s))
    ensures Call(s, retryableCodes, script).result == Failure(Classify(t))
    ensures |Call(s, retryableCodes, script).starts| == 1
  {
    assert BudgetExhausted(s, Initial(s));
  }

  /** Every call follows the backoff schedule: attempt `i` (from 0) carries the timeout
      `min(initialRpcTimeout * rpcTimeoutMultiplier^i, maxRpcTimeout)`, and starts
      `min(initialRetryDelay * retryDelayMultiplier^(i-1), maxRetryDelay)` after the
      attempt before it. */
  lemma CallFollowsBackoff(s: RetrySettings, retryableCodes: set<Code>, script: seq<Outcome>, i: nat)
    requires s.Valid() && |script| > 0 && Terminates(s, retryableCodes, script, Initial(s))
    requires i < |Call(s, retryableCodes, script).starts|
    ensures Call(s, retryableCodes, script).rpcTimeouts[i] ==
              Min(s.initialRpcTimeout * Pow(s.rpcTimeoutMultiplier, i), s.maxRpcTimeout)
    ensures i > 0 ==>
              Call(s, retryableCodes, script).starts[i] == Call(s, retryableCodes, script).starts[i - 1] +
                Min(s.initialRetryDelay * Pow(s.retryDelayMultiplier, i - 1), s.maxRetryDelay)
  {
    BackoffSchedule(s, i);
    if i > 0 {
      BackoffSchedule(s, i - 1);
      AfterStep(s, Initial(s), i - 1);
    }
  }

  /** Consecutive start times between `lo` and `hi` apart put the `i`-th start between
      `i * lo` and `i * hi` after the first. */
  lemma {:induction false} StartsSpreadOut(starts: seq<nat>, lo: nat, hi: nat, i: nat)
    requires i < |starts|
    requires forall k :: 0 < k < |starts| ==> starts[k - 1] + lo <= starts[k] <= starts[k - 1] + hi
    ensures starts[0] + i * lo <= starts[i] <= starts[0] + i * hi
    decreases i
  {
    if i > 0 {
      StartsSpreadOut(starts, lo, hi, i - 1);
      assert i * lo == (i - 1) * lo + lo;
      assert i * hi == (i - 1) * hi + hi;
    }
  }

  /** Every call ends within its time budget: each retry waits at least the initial
      delay and no attempt starts after the total timeout, so a call with a positive
      initial delay makes at most `totalTimeout / initialRetryDelay + 1` attempts, even
      against a failure that never recovers. */
  lemma AttemptsBoundedByTime(s: RetrySettings, retryableCodes: set<Code>, script: seq<Outcome>)
    requires s.Valid() && |script| > 0 && Terminates(s, retryableCodes, script, Initial(s))
    ensures (|Call(s, retryableCodes, script).starts| - 1) * s.initialRetryDelay <= s.totalTimeout
  {
    var r := Call(s, retryableCodes, script);
    var n := |r.starts|;
    assert r.starts[0] == 0 && r.starts[n - 1] <= s.totalTimeout;
    StartsSpreadOut(r.starts, s.initialRetryDelay, s.maxRetryDelay, n - 1);
  }

  /** A failure that never recovers, retried with a fixed delay `d` and no attempt limit,
      is attempted exactly `totalTimeout / d + 1` times and then surfaced, classified. */
  lemma KeepsFailingUntilTimeout(s: RetrySettings, retryableCodes: set<Code>, script: seq<Outcome>)
    requires s.Valid() && |script| > 0 && s.maxAttempts == 0
    requires 0 < s.initialRetryDelay == s.maxRetryDelay
    requires forall j :: 0 <= j < |script| ==> IsRetryableFailure(script[j], retryableCodes)
    ensures Terminates(s, retryableCodes, script, Initial(s))
    ensures var r := Call(s, retryableCodes, script);
            && |r.starts| == s.totalTimeout / s.initialRetryDelay + 1
            && r.result.Failure?
            && r.result.error == Classify(OutcomeAt(script, |r.starts| - 1).failure)
  {
    var r := Call(s, retryableCodes, script);
    var d := s.initialRetryDelay;
    var n := |r.starts|;
    var last := OutcomeAt(script, n - 1);
    assert IsRetryableFailure(last, retryableCodes);
    assert r.result.Failure? by {
      assert last.Threw?;
    }
    assert IsRetryable(r.result.error, retryableCodes);
    assert r.starts[n - 1] <= s.totalTimeout;
    assert s.totalTimeout < r.starts[n - 1] + d;
    CountFromLastStart(r.starts, d, s.totalTimeout);
  }

  /** Start times exactly `d` apart from zero, the last of which lies in `(t - d, t]`,
      number `t / d + 1`. */
  lemma CountFromLastStart(starts: seq<nat>, d: nat, t: nat)
    requires 0 < d && |starts| > 0 && starts[0] == 0
    requires forall k :: 0 < k < |starts| ==> starts[k - 1] + d <= starts[k] <= starts[k - 1] + d
    requires starts[|starts| - 1] <= t < starts[|starts| - 1] + d
    ensures |starts| == t / d + 1
  {
    var n := |starts|;
    StartsSpreadOut(starts, d, d, n - 1);
    DivisionOfBracketed(t, d, n - 1);
  }

  /** `q` is the quotient of `t` by `d` when `t` lies in `[q * d, q * d + d)`. */
  lemma DivisionOfBracketed(t: nat, d: nat, q: nat)
    requires 0 < d && q * d <= t < q * d + d
    ensures t / d == q
  {
    var q' := t / d;
    assert t == q' * d + t % d && 0 <= t % d < d;
    assert (q + 1) * d == q * d + d && (q' + 1) * d == q' * d + d;
    if q' > q {
      MultiplyMonotone(q + 1, q', d);
    } else if q' < q {
      MultiplyMonotone(q' + 1, q, d);
    }
  }

  lemma MultiplyMonotone(a: nat, b: nat, d: nat)
    requires a <= b
    ensures a * d <= b * d
  {
    assert b * d == a * d + (b - a) * d;
  }

  /** With a delay that neither grows nor is capped below its initial value, `k`
      retries move the clock by exactly `k` delays. */
  lemma {:induction false} FixedDelayElapsed(s: RetrySettings, st: AttemptState, k: nat)
    requires s.retryDelayMultiplier == 1 && st.retryDelay == s.maxRetryDelay
    ensures After(s, st, k).elapsed == st.elapsed + k * s.maxRetryDelay
    decreases k
  {
    if k > 0 {
      FixedDelayElapsed(s, Advance(s, st), k - 1);
      assert k * s.maxRetryDelay == (k - 1) * s.maxRetryDelay + s.maxRetryDelay;
    }
  }

  /** With a delay doubling from 1 ms up to an 8 ms cap and a 10 ms budget, a failure
      that is always retryable is retried while the delay then due fits the budget:
      attempts start at 0, 1, 3 and 7 ms, and the fourth failure surfaces because the
      8 ms delay then due would start the next attempt at 15 ms. */
  lemma DoublingRetriesWhileDueDelayFits(s: RetrySettings, retryableCodes: set<Code>, script: seq<Outcome>)
    requires s.initialRetryDelay == 1 && s.retryDelayMultiplier == 2 && s.maxRetryDelay == 8
    requires s.totalTimeout == 10 && s.maxAttempts == 0 && s.Valid()
    requires |script| > 0 && forall j :: 0 <= j < |script| ==> IsRetryableFailure(script[j], retryableCodes)
    ensures Terminates(s, retryableCodes, script, Initial(s))
    ensures var r := Call(s, retryableCodes, script);
            && r.starts == [0, 1, 3, 7]
            && OutcomeAt(script, 3).Threw?
            && r.result == Failure(Classify(OutcomeAt(script, 3).failure))
  {
    var r := Call(s, retryableCodes, script);
    var n := |r.starts|;
    DoublingSchedule(s);
    assert IsRetryableFailure(OutcomeAt(script, n - 1), retryableCodes);
    assert r.result.Failure? by {
      assert OutcomeAt(script, n - 1).Threw?;
    }
    assert BudgetExhausted(s, After(s, Initial(s), n - 1));
    assert n == 4;
  }

  /** The doubling schedule: the clock of the first five attempts, and the budget is
      spent at the fourth and not before. */
  lemma DoublingSchedule(s: RetrySettings)
    requires s.initialRetryDelay == 1 && s.retryDelayMultiplier == 2 && s.maxRetryDelay == 8
    requires s.totalTimeout == 10 && s.maxAttempts == 0 && s.Valid()
    ensures After(s, Initial(s), 1).elapsed == 1
    ensures After(s, Initial(s), 2).elapsed == 3
    ensures After(s, Initial(s), 3).elapsed == 7
    ensures After(s, Initial(s), 4).elapsed == 15
    ensures forall k :: 0 <= k < 3 ==> !BudgetExhausted(s, After(s, Initial(s), k))
    ensures BudgetExhausted(s, After(s, Initial(s), 3))
  {
    var a0 := Initial(s);
    var a1 := Advance(s, a0);
    var a2 := Advance(s, a1);
    var a3 := Advance(s, a2);
    var a4 := Advance(s, a3);
    assert a1.elapsed == 1 && a1.retryDelay == 2;
    assert a2.elapsed == 3 && a2.retryDelay == 4;
    assert a3.elapsed == 7 && a3.retryDelay == 8;
    assert a4.elapsed == 15;
    assert After(s, a0, 1) == a1;
    assert After(s, a0, 2) == a2 by {
      AfterStep(s, a0, 1);
    }
    assert After(s, a0, 3) == a3 by {
      AfterStep(s, a0, 2);
    }
    assert After(s, a0, 4) == a4 by {
      AfterStep(s, a0, 3);
    }
    forall k | 0 <= k < 3
      ensures !BudgetExhausted(s, After(s, a0, k))
    {
    }
  }
}

=== FILE: retry_scenarios.dfy ===
/** The retry scenarios of the HTTP/JSON retrying tests, each stated as the trace the
    model produces on the fast retry settings and a fake clock. */
module RetryScenarios {
  import opened Wrappers
  import opened Strings
  import opened StatusCodes
  import opened Errors
  import opened Settings
  import opened Retrying
  import opened RetryProperties

  /** An HTTP 503 with status message "server unavailable" and no detail message. */
  const ServiceUnavailable: Throwable := HttpResponseException(503, "server unavailable", "")

  /** An HTTP 500 whose message was set to "UNKNOWN". */
  const ServerErrorUnknown: Throwable := HttpResponseException(500, "server unavailable", "UNKNOWN")

  /** An HTTP 503 with status message "Unavailable" and no detail message. */
  const Unavailable503: Throwable := HttpResponseException(503, "Unavailable", "")

  /** An API exception already classified FAILED_PRECONDITION, wrapping an HTTP error. */
  function PreclassifiedFailure(cause: Throwable): Throwable {
    ApiError(ApiException("foobar", Some(cause), StatusCodeOf(FailedPrecondition)))
  }

  /** The JSON error body of the 400 scenario, around the reason it names. */
  const BadRequestBodyHead: string :=
    "{\n \"error\": {\n  \"errors\": [\n   {\n    \"domain\": \"global\",\n    \"reason\": \""
  const BadRequestBodyTail: string :=
    "\",\n   }\n  ],\n  \"code\": 400,\n  \"message\": \"Failed precondition.\"\n }\n}"

  /** An HTTP 400 whose status message is FAILED_PRECONDITION and whose body names that
      reason; the body is opaque here. */
  const BadRequestBody: string := BadRequestBodyHead + "FAILED_PRECONDITION" + BadRequestBodyTail
  const FailedPrecondition400: Throwable := HttpResponseException(400, "FAILED_PRECONDITION", BadRequestBody)

  const RuntimeUnknown: Throwable := RuntimeFailure("java.lang.RuntimeException", Some("unknown"))
  const RuntimeFoobar: Throwable := RuntimeFailure("java.lang.RuntimeException", Some("foobar"))

  /** Fast settings with an attempt limit. */
  function FastWithMaxAttempts(n: nat): (s: RetrySettings)
    ensures s.Valid() && s.maxAttempts == n
  {
    FastRetrySettings.(maxAttempts := n)
  }

  /** Fast settings whose retry delay is `Integer.MAX_VALUE` ms. */
  const HugeDelaySettings: RetrySettings :=
    FastRetrySettings.(initialRetryDelay := IntegerMaxValue, maxRetryDelay := IntegerMaxValue)

  lemma ServiceUnavailableIsUnavailable()
    ensures Classify(ServiceUnavailable).statusCode == StatusCode(Unavailable, 503)
    ensures Classify(Unavailable503).statusCode == StatusCode(Unavailable, 503)
  {
    assert ReasonCodes(503) == [];
  }

  lemma ServerErrorUnknownIsUnknown()
    ensures Classify(ServerErrorUnknown).statusCode == StatusCode(Unknown, 500)
  {
    RoundTripServerError(Unknown);
  }

  /** On the fast settings, three retryable failures then 2 return 2 on the fourth
      attempt. */
  lemma ThreeRetriesThenTwo(retryableCodes: set<Code>, t: Throwable)
    requires IsRetryable(Classify(t), retryableCodes)
    ensures var script := [Threw(t), Threw(t), Threw(t), Returned(2)];
            && Terminates(FastRetrySettings, retryableCodes, script, Initial(FastRetrySettings))
            && Call(FastRetrySettings, retryableCodes, script).result == Success(2)
            && |Call(FastRetrySettings, retryableCodes, script).starts| == 4
  {
    var script := [Threw(t), Threw(t), Threw(t), Returned(2)];
    assert forall j :: 0 <= j < 3 ==> script[j] == Threw(t);
    FixedDelaySucceeds(FastRetrySettings, retryableCodes, script, 3, 2);
  }

  /** Three service-unavailable failures, then 2: the call returns 2 on the fourth
      attempt, six milliseconds after the first. */
  lemma RetryScenario()
    ensures var script := [Threw(ServiceUnavailable), Threw(ServiceUnavailable), Threw(ServiceUnavailable), Returned(2)];
            && Terminates(FastRetrySettings, {Unavailable}, script, Initial(FastRetrySettings))
            && Call(FastRetrySettings, {Unavailable}, script).result == Success(2)
            && |Call(FastRetrySettings, {Unavailable}, script).starts| == 4
  {
    ServiceUnavailableIsUnavailable();
    ThreeRetriesThenTwo({Unavailable}, ServiceUnavailable);
  }

  /** Three HTTP 500 "UNKNOWN" failures with UNKNOWN retryable, then 2: the call
      returns 2. */
  lemma RetryOnStatusUnknownScenario()
    ensures var script := [Threw(ServerErrorUnknown), Threw(ServerErrorUnknown), Threw(ServerErrorUnknown), Returned(2)];
            && Terminates(FastRetrySettings, {Unknown}, script, Initial(FastRetrySettings))
            && Call(FastRetrySettings, {Unknown}, script).result == Success(2)
  {
    ServerErrorUnknownIsUnknown();
    ThreeRetriesThenTwo({Unknown}, ServerErrorUnknown);
  }

  /** With `maxAttempts = 2`, two retryable failures end the call in the second failure,
      although the third scripted outcome would have succeeded. */
  lemma TwoAttemptsThenFail(retryableCodes: set<Code>, t: Throwable)
    requires IsRetryable(Classify(t), retryableCodes)
    ensures var script := [Threw(t), Threw(t), Returned(2)];
            && Terminates(FastWithMaxAttempts(2), retryableCodes, script, Initial(FastWithMaxAttempts(2)))
            && Call(FastWithMaxAttempts(2), retryableCodes, script).result == Failure(Classify(t))
            && |Call(FastWithMaxAttempts(2), retryableCodes, script).starts| == 2
  {
    var script := [Threw(t), Threw(t), Returned(2)];
    assert forall j :: 0 <= j < 2 ==> OutcomeAt(script, j) == Threw(t);
    FixedDelayFailsAtMaxAttempts(FastWithMaxAttempts(2), retryableCodes, script);
  }

  /** The scenario with service-unavailable failures. */
  lemma RetryMaxAttemptsExceededScenario()
    ensures var script := [Threw(ServiceUnavailable), Threw(ServiceUnavailable), Returned(2)];
            && Terminates(FastWithMaxAttempts(2), {Unavailable}, script, Initial(FastWithMaxAttempts(2)))
            && Call(FastWithMaxAttempts(2), {Unavailable}, script).result == Failure(Classify(ServiceUnavailable))
            && |Call(FastWithMaxAttempts(2), {Unavailable}, script).starts| == 2
  {
    ServiceUnavailableIsUnavailable();
    TwoAttemptsThenFail({Unavailable}, ServiceUnavailable);
  }

  /** With `maxAttempts = 3`, any two retryable failures then 2 return 2 after three
      attempts. */
  lemma TwoRetriesThenTwo(retryableCodes: set<Code>, t: Throwable)
    requires IsRetryable(Classify(t), retryableCodes)
    ensures var s := FastWithMaxAttempts(3);
            var script := [Threw(t), Threw(t), Returned(2)];
            && Terminates(s, retryableCodes, script, Initial(s))
            && Call(s, retryableCodes, script).result == Success(2)
            && |Call(s, retryableCodes, script).starts| == 3
  {
    var script := [Threw(t), Threw(t), Returned(2)];
    assert forall j :: 0 <= j < 2 ==> script[j] == Threw(t);
    FixedDelaySucceeds(FastWithMaxAttempts(3), retryableCodes, script, 2, 2);
  }

  /** With `maxAttempts = 3`, two failures then 2 return 2 after three attempts; a second
      call on the same stub, whose last answer repeats, returns 2 at once. */
  lemma RetryWithinMaxAttemptsScenario()
    ensures var s := FastWithMaxAttempts(3);
            var script := [Threw(ServiceUnavailable), Threw(ServiceUnavailable), Returned(2)];
            && Terminates(s, {Unavailable}, script, Initial(s))
            && Call(s, {Unavailable}, script).result == Success(2)
            && |Call(s, {Unavailable}, script).starts| == 3
            && Terminates(s, {Unavailable}, Remaining(script, 3), Initial(s))
            && Call(s, {Unavailable}, Remaining(script, 3)).result == Success(2)
  {
    ServiceUnavailableIsUnavailable();
    TwoRetriesThenTwo({Unavailable}, ServiceUnavailable);
    var script := [Threw(ServiceUnavailable), Threw(ServiceUnavailable), Returned(2)];
    ReturnsAtOnce(FastWithMaxAttempts(3), {Unavailable}, Remaining(script, 3), 2);
  }

  /** A failure already classified FAILED_PRECONDITION is not retryable and surfaces on
      the first attempt as the very same exception; so does it under a retry delay far
      beyond the total timeout. */
  lemma RetryNoRecoverScenario()
    ensures var e := PreclassifiedFailure(HttpResponseException(400, "foobar", ""));
            var script := [Threw(e), Returned(2)];
            && Terminates(FastRetrySettings, {Unavailable}, script, Initial(FastRetrySettings))
            && Call(FastRetrySettings, {Unavailable}, script).result == Failure(e.exception)
            && |Call(FastRetrySettings, {Unavailable}, script).starts| == 1
  {
    var e := PreclassifiedFailure(HttpResponseException(400, "foobar", ""));
    NonRetryableSurfacesAtOnce(FastRetrySettings, {Unavailable}, [Threw(e), Returned(2)], e);
  }

  /** The huge-delay scenario: the scripted failure is FAILED_PRECONDITION, so it ends
      the call on the first attempt. */
  lemma RetryTotalTimeoutExceededScenario()
    ensures var e := PreclassifiedFailure(ServiceUnavailable);
            var script := [Threw(e), Returned(2)];
            && Terminates(HugeDelaySettings, {Unavailable}, script, Initial(HugeDelaySettings))
            && Call(HugeDelaySettings, {Unavailable}, script).result == Failure(e.exception)
  {
    var e := PreclassifiedFailure(ServiceUnavailable);
    NonRetryableSurfacesAtOnce(HugeDelaySettings, {Unavailable}, [Threw(e), Returned(2)], e);
  }

  /** The huge-delay scenario with the budget check isolated: even a retryable failure
      ends the call on the first attempt, because the next attempt could only start
      `Integer.MAX_VALUE` ms later, past the 10 ms total timeout. */
  lemma HugeDelayExhaustsBudget()
    ensures var script := [Threw(ServiceUnavailable), Returned(2)];
            && Terminates(HugeDelaySettings, {Unavailable}, script, Initial(HugeDelaySettings))
            && Call(HugeDelaySettings, {Unavailable}, script).result == Failure(Classify(ServiceUnavailable))
            && |Call(HugeDelaySettings, {Unavailable}, script).starts| == 1
  {
    ServiceUnavailableIsUnavailable();
    var script := [Threw(ServiceUnavailable), Returned(2)];
    AttemptsBoundedByTime(HugeDelaySettings, {Unavailable}, script);
  }

  /** Settings whose delay doubles from 1 ms up to an 8 ms cap, under a 10 ms budget. */
  const DoublingSettings: RetrySettings :=
    RetrySettings(
      initialRetryDelay := 1, retryDelayMultiplier := 2, maxRetryDelay := 8,
      initialRpcTimeout := 2, rpcTimeoutMultiplier := 1, maxRpcTimeout := 2,
      totalTimeout := 10, maxAttempts := 0)

  /** With doubling delays a permanent 503 is retried as long as the delay then due
      fits the budget, not the capped one: attempts start at 0, 1, 3 and 7 ms, and the
      fourth failure surfaces because the 8 ms delay then due would overrun 10 ms. */
  lemma DoublingDelaysRetryWhileDueDelayFits()
    ensures var script := [Threw(ServiceUnavailable)];
            && Terminates(DoublingSettings, {Unavailable}, script, Initial(DoublingSettings))
            && Call(DoublingSettings, {Unavailable}, script).starts == [0, 1, 3, 7]
            && Call(DoublingSettings, {Unavailable}, script).result == Failure(Classify(ServiceUnavailable))
  {
    ServiceUnavailableIsUnavailable();
    DoublingRetriesWhileDueDelayFits(DoublingSettings, {Unavailable}, [Threw(ServiceUnavailable)]);
  }

  /** A plain runtime failure with UNKNOWN retryable keeps failing until the total
      timeout; the exception surfaced has that very failure as its cause. */
  lemma RetryOnUnexpectedExceptionScenario()
    ensures var script := [Threw(RuntimeFoobar)];
            && Terminates(FastRetrySettings, {Unknown}, script, Initial(FastRetrySettings))
            && Call(FastRetrySettings, {Unknown}, script).result.Failure?
            && Call(FastRetrySettings, {Unknown}, script).result.error.cause == Some(RuntimeFoobar)
  {
    KeepsFailingUntilTimeout(FastRetrySettings, {Unknown}, [Threw(RuntimeFoobar)]);
  }

  /** A 503 that never recovers: six attempts at 0, 2, 4, 6, 8 and 10 ms, then the
      last failure, whose message is the status message "Unavailable". */
  lemma RetryKeepFailingScenario()
    ensures var script := [Threw(Unavailable503)];
            && Terminates(FastRetrySettings, {Unavailable}, script, Initial(FastRetrySettings))
            && Call(FastRetrySettings, {Unavailable}, script).result.Failure?
            && Contains(Call(FastRetrySettings, {Unavailable}, script).result.error.message, "Unavailable")
            && |Call(FastRetrySettings, {Unavailable}, script).starts| == 6
  {
    ServiceUnavailableIsUnavailable();
    var script := [Threw(Unavailable503)];
    KeepsFailingUntilTimeout(FastRetrySettings, {Unavailable}, script);
    ContainsSelf("Unavailable");
  }

  /** The 400 body carries the FAILED_PRECONDITION reason. */
  lemma BodyNamesFailedPrecondition()
    ensures Contains(BadRequestBody, "FAILED_PRECONDITION")
  {
    ContainsInMiddle(BadRequestBodyHead, "FAILED_PRECONDITION", BadRequestBodyTail);
  }

  /** An HTTP 400 naming FAILED_PRECONDITION, not retryable: the typed error is
      FAILED_PRECONDITION, keeps transport code 400, and its message names the reason. */
  lemma KnownStatusCodeScenario()
    ensures var script := [Threw(FailedPrecondition400)];
            && Terminates(DefaultRetrySettings, {Unavailable}, script, Initial(DefaultRetrySettings))
            && Call(DefaultRetrySettings, {Unavailable}, script).result.Failure?
            && Call(DefaultRetrySettings, {Unavailable}, script).result.error.statusCode == StatusCode(FailedPrecondition, 400)
            && Contains(Call(DefaultRetrySettings, {Unavailable}, script).result.error.message, "FAILED_PRECONDITION")
  {
    BodyNamesFailedPrecondition();
    BadRequestRule(BadRequestBody);
    ContainsSelf("FAILED_PRECONDITION");
    DefaultSettingsNeverRetry({Unavailable}, [Threw(FailedPrecondition400)], FailedPrecondition400);
  }

  /** A call configured with retryable codes only runs on the all-zero default settings,
      so no failure is ever retried, whether or not its code is retryable. */
  lemma DefaultSettingsNeverRetry(retryableCodes: set<Code>, script: seq<Outcome>, t: Throwable)
    requires |script| > 0 && script[0] == Threw(t)
    ensures Terminates(DefaultRetrySettings, retryableCodes, script, Initial(DefaultRetrySettings))
    ensures Call(DefaultRetrySettings, retryableCodes, script).result == Failure(Classify(t))
    ensures |Call(DefaultRetrySettings, retryableCodes, script).starts| == 1
  {
    ZeroBudgetSurfacesAtOnce(DefaultRetrySettings, retryableCodes, script, t);
  }

  /** With no retryable codes, a plain runtime failure surfaces as UNKNOWN with the
      failure's own string form as message. */
  lemma UnknownStatusCodeScenario()
    ensures var script := [Threw(RuntimeUnknown)];
            && Terminates(DefaultRetrySettings, {}, script, Initial(DefaultRetrySettings))
            && Call(DefaultRetrySettings, {}, script).result.Failure?
            && Call(DefaultRetrySettings, {}, script).result.error.statusCode.code == Unknown
            && Call(DefaultRetrySettings, {}, script).result.error.message == "java.lang.RuntimeException: unknown"
  {
    NonRetryableSurfacesAtOnce(DefaultRetrySettings, {}, [Threw(RuntimeUnknown)], RuntimeUnknown);
  }
}

=== FILE: retrying.dfy ===
/** The retrying unary call: attempts come from a scripted sequence of outcomes, failures
    are classified, retryable ones are retried after a scheduled delay on a fake clock
    that moves only when a delay is scheduled, and the call ends with the first success,
    the first non-retryable failure, or the last failure once the budget is spent. */
module Retrying {
  import opened Wrappers
  import opened StatusCodes
  import opened Errors
  import opened Settings

  /** What one attempt produces. */
  datatype Outcome = Returned(value: int) | Threw(failure: Throwable)

  /** Everything a resilient call did: its result, and for each attempt issued the fake
      clock at its start and the attempt timeout it carried. */
  datatype Trace = Trace(result: Result<int, ApiException>, starts: seq<nat>, rpcTimeouts: seq<nat>)

  /** The outcome of the attempt numbered `n` (from 0): scripted outcomes are used in
      order and the last one repeats for ever, as a stubbed mock answers. */
  function OutcomeAt(script: seq<Outcome>, n: nat): Outcome
    requires |script| > 0
  {
    if n < |script| then script[n] else script[|script| - 1]
  }

  /** Every answer the stub gives is one of the scripted outcomes, and once the script is
      used up the stub keeps giving its last outcome. */
  lemma LastAnswerRepeats(script: seq<Outcome>, n: nat, m: nat)
    requires |script| > 0
    ensures OutcomeAt(script, n) in script
    ensures |script| - 1 <= n <= m ==> OutcomeAt(script, m) == OutcomeAt(script, n)
  {
  }

  /** A failure the call retries: its canonical code is one of the retryable codes. */
  predicate IsRetryable(e: ApiException, retryableCodes: set<Code>) {
    e.statusCode.code in retryableCodes
  }

  /** An outcome that is a failure the call retries. */
  predicate IsRetryableFailure(o: Outcome, retryableCodes: set<Code>) {
    o.Threw? && IsRetryable(Classify(o.failure), retryableCodes)
  }

  /** An outcome that ends the call whatever the budget. */
  predicate Stops(o: Outcome, retryableCodes: set<Code>) {
    !IsRetryableFailure(o, retryableCodes)
  }

  /** The call comes to an end: attempts are limited, or there is no time for any
      retry, or every retry moves the clock, or an outcome that ends the call is still
      ahead in the script. When none holds, the last outcome fails retryably for ever and
      no delay moves the clock. */
  predicate Terminates(s: RetrySettings, retryableCodes: set<Code>, script: seq<Outcome>, st: AttemptState) {
    || s.maxAttempts > 0
    || s.totalTimeout == 0
    || s.initialRetryDelay > 0
    || exists i :: st.attemptCount <= i < |script| && Stops(script[i], retryableCodes)
  }

  /** The stubbed answers left after `n` have been consumed: a later call on the same
      stub continues where an earlier one stopped, and the last answer still repeats. */
  function Remaining(script: seq<Outcome>, n: nat): (rest: seq<Outcome>)
    requires |script| > 0
    ensures |rest| > 0
    ensures forall k: nat :: OutcomeAt(rest, k) == OutcomeAt(script, n + k)
  {
    if n < |script| then script[n..] else [script[|script| - 1]]
  }

  function AttemptsLeft(s: RetrySettings, st: AttemptState): nat {
    if s.maxAttempts > st.attemptCount then s.maxAttempts - st.attemptCount else 0
  }

  function TimeLeft(s: RetrySettings, st: AttemptState): nat {
    if s.totalTimeout >= st.elapsed then s.totalTimeout - st.elapsed else 0
  }

  function ScriptLeft(script: seq<Outcome>, st: AttemptState): nat {
    if |script| >= st.attemptCount then |script| - st.attemptCount else 0
  }

  function Last(xs: seq<nat>): nat
    requires |xs| > 0
  {
    xs[|xs| - 1]
  }

  /** The timing of a trace from state `st`: one start time and one attempt timeout per
      attempt, the first attempt starting now, no more attempts than allowed, no attempt
      starting after the total timeout, the clock moving between two attempts by one
      scheduled delay within its bounds, and every attempt timeout within its bounds. */
  predicate WellTimed(s: RetrySettings, st: AttemptState, r: Trace) {
    && |r.starts| >= 1 && |r.rpcTimeouts| == |r.starts|
    && r.starts[0] == st.elapsed && r.rpcTimeouts[0] == st.rpcTimeout
    && (s.maxAttempts > 0 ==> st.attemptCount + |r.starts| <= s.maxAttempts)
    && (forall i :: 0 <= i < |r.starts| ==> r.starts[i] <= s.totalTimeout)
    && (forall i :: 0 < i < |r.starts| ==>
          r.starts[i - 1] + s.initialRetryDelay <= r.starts[i] <= r.starts[i - 1] + s.maxRetryDelay)
    && (forall i :: 0 <= i < |r.rpcTimeouts| ==> s.initialRpcTimeout <= r.rpcTimeouts[i] <= s.maxRpcTimeout)
  }

  /** The outcome of a trace from state `st`: every attempt but the last failed
      retryably while the budget of its state was not spent; the result is the last attempt's value or its failure classified; and a
      retryable failure is surfaced only when the budget of the last attempt's state is
      spent: the attempt limit is reached, the clock has reached the total timeout, or the
      delay then due would start the next attempt after it. */
  predicate Explains(s: RetrySettings, retryableCodes: set<Code>, script: seq<Outcome>, st: AttemptState, r: Trace)
    requires |script| > 0 && |r.starts| >= 1
  {
    var last := st.attemptCount + |r.starts| - 1;
    && (forall j :: st.attemptCount <= j < last ==> IsRetryableFailure(OutcomeAt(script, j), retryableCodes))
    && RetriedWithinBudget(s, st, r)
    && (r.result.Success? ==> OutcomeAt(script, last) == Returned(r.result.value))
    && (r.result.Failure? ==> OutcomeAt(script, last).Threw? && r.result.error == Classify(OutcomeAt(script, last).failure))
    && (r.result.Failure? && IsRetryable(r.result.error, retryableCodes) ==>
          BudgetExhausted(s, After(s, st, |r.starts| - 1)))
  }

  /** Every attempt of a trace from state `st` but the last was retried while the budget
      of its state, `j` backoff steps on, was not spent. */
  predicate RetriedWithinBudget(s: RetrySettings, st: AttemptState, r: Trace) {
    forall j :: 0 <= j < |r.starts| - 1 ==> !BudgetExhausted(s, After(s, st, j))
  }

  /** The schedule of a trace from state `st`: attempt `i` starts when the clock reaches
      the state `i` backoff steps later, and carries that state's attempt timeout. */
  predicate FollowsSchedule(s: RetrySettings, st: AttemptState, r: Trace) {
    && |r.rpcTimeouts| == |r.starts|
    && forall i :: 0 <= i < |r.starts| ==>
         r.starts[i] == After(s, st, i).elapsed && r.rpcTimeouts[i] == After(s, st, i).rpcTimeout
  }

  /** The attempt loop from state `st`. */
  function Run(s: RetrySettings, retryableCodes: set<Code>, script: seq<Outcome>, st: AttemptState): (r: Trace)
    requires s.Valid() && |script| > 0 && Consistent(s, st)
    requires Terminates(s, retryableCodes, script, st)
    ensures WellTimed(s, st, r)
    ensures Explains(s, retryableCodes, script, st, r)
    ensures FollowsSchedule(s, st, r)
    decreases AttemptsLeft(s, st), TimeLeft(s, st), ScriptLeft(script, st)
  {
    match OutcomeAt(script, st.attemptCount)
    case Returned(v) =>
      Trace(Success(v), [st.elapsed], [st.rpcTimeout])
    case Threw(t) =>
      var e := Classify(t);
      if !IsRetryable(e, retryableCodes) || BudgetExhausted(s, st) then
        Trace(Failure(e), [st.elapsed], [st.rpcTimeout])
      else
        var next := Advance(s, st);
        TerminatesAfterRetry(s, retryableCodes, script, st);
        var rest := Run(s, retryableCodes, script, next);
        RetryKeepsTiming(s, st, rest);
        RetryKeepsExplanation(s, retryableCodes, script, st, rest);
        RetryKeepsSchedule(s, st, rest);
        Prepend(st, rest)
  }

  /** Retrying keeps the loop's termination argument. */
  lemma TerminatesAfterRetry(s: RetrySettings, retryableCodes: set<Code>, script: seq<Outcome>, st: AttemptState)
    requires s.Valid() && |script| > 0 && Consistent(s, st)
    requires Terminates(s, retryableCodes, script, st)
    requires IsRetryableFailure(OutcomeAt(script, st.attemptCount), retryableCodes)
    ensures Terminates(s, retryableCodes, script, Advance(s, st))
  {
    if s.maxAttempts == 0 && s.totalTimeout != 0 && s.initialRetryDelay == 0 {
      var i :| st.attemptCount <= i < |script| && Stops(script[i], retryableCodes);
      assert i != st.attemptCount;
    }
  }

  /** The trace of a failed attempt from `st` followed by the rest of the call. */
  function Prepend(st: AttemptState, rest: Trace): (r: Trace)
    ensures |r.starts| == |rest.starts| + 1
  {
    Trace(rest.result, [st.elapsed] + rest.starts, [st.rpcTimeout] + rest.rpcTimeouts)
  }

  /** A retry within budget keeps the timing of the trace: the failed attempt starts now,
      and the rest starts one scheduled delay later. */
  lemma RetryKeepsTiming(s: RetrySettings, st: AttemptState, rest: Trace)
    requires s.Valid() && Consistent(s, st) && !BudgetExhausted(s, st)
    requires WellTimed(s, Advance(s, st), rest)
    ensures WellTimed(s, st, Prepend(st, rest))
  {
    var r := Prepend(st, rest);
    assert rest.starts[0] == st.elapsed + NextDelay(s, st);
    forall i | 0 <= i < |r.starts|
      ensures r.starts[i] <= s.totalTimeout
      ensures s.initialRpcTimeout <= r.rpcTimeouts[i] <= s.maxRpcTimeout
    {
      if i > 0 {
        assert r.starts[i] == rest.starts[i - 1] && r.rpcTimeouts[i] == rest.rpcTimeouts[i - 1];
      }
    }
    forall i | 0 < i < |r.starts|
      ensures r.starts[i - 1] + s.initialRetryDelay <= r.starts[i] <= r.starts[i - 1] + s.maxRetryDelay
    {
      if i > 1 {
        assert r.starts[i] == rest.starts[i - 1] && r.starts[i - 1] == rest.starts[i - 2];
      }
    }
  }

  /** A retry of a retryable failure keeps the explanation of the trace: one more failed
      attempt in front, the same last attempt and the same result. */
  lemma RetryKeepsExplanation(
    s: RetrySettings, retryableCodes: set<Code>, script: seq<Outcome>, st: AttemptState, rest: Trace)
    requires |script| > 0 && |rest.starts| >= 1
    requires IsRetryableFailure(OutcomeAt(script, st.attemptCount), retryableCodes)
    requires !BudgetExhausted(s, st)
    requires Explains(s, retryableCodes, script, Advance(s, st), rest)
    ensures Explains(s, retryableCodes, script, st, Prepend(st, rest))
  {
    var next := Advance(s, st);
    var r := Prepend(st, rest);
    var last := st.attemptCount + |r.starts| - 1;
    assert last == next.attemptCount + |rest.starts| - 1;
    assert r.result == rest.result;
    forall j | st.attemptCount <= j < last
      ensures IsRetryableFailure(OutcomeAt(script, j), retryableCodes)
    {
      if j > st.attemptCount {
        assert next.attemptCount <= j;
      }
    }
    assert r.result.Success? ==> OutcomeAt(script, last) == Returned(r.result.value);
    assert r.result.Failure? ==> OutcomeAt(script, last).Threw? && r.result.error == Classify(OutcomeAt(script, last).failure);
    forall j | 0 < j < |r.starts| - 1
      ensures !BudgetExhausted(s, After(s, st, j))
    {
      assert After(s, st, j) == After(s, next, j - 1);
    }
    assert After(s, st, |r.starts| - 1) == After(s, next, |rest.starts| - 1);
    assert r.result.Failure? && IsRetryable(r.result.error, retryableCodes) ==>
      BudgetExhausted(s, After(s, st, |r.starts| - 1));
  }

  /** A retry keeps the schedule: the failed attempt is step 0, and the rest of the call
      follows the schedule one step later. */
  lemma RetryKeepsSchedule(s: RetrySettings, st: AttemptState, rest: Trace)
    requires FollowsSchedule(s, Advance(s, st), rest)
    ensures FollowsSchedule(s, st, Prepend(st, rest))
  {
    var r := Prepend(st, rest);
    forall i | 0 < i < |r.starts|
      ensures r.starts[i] == After(s, st, i).elapsed && r.rpcTimeouts[i] == After(s, st, i).rpcTimeout
    {
      assert After(s, st, i) == After(s, Advance(s, st), i - 1);
      assert r.starts[i] == rest.starts[i - 1] && r.rpcTimeouts[i] == rest.rpcTimeouts[i - 1];
    }
  }

  /** A resilient call: the attempt loop from the first attempt. */
  function Call(s: RetrySettings, retryableCodes: set<Code>, script: seq<Outcome>): (r: Trace)
    requires s.Valid() && |script| > 0
    requires Terminates(s, retryableCodes, script, Initial(s))
    ensures |r.starts| >= 1 && r.starts[0] == 0
    ensures s.maxAttempts > 0 ==> |r.starts| <= s.maxAttempts
    ensures forall i :: 0 <= i < |r.starts| ==> r.starts[i] <= s.totalTimeout
    ensures forall i :: 0 < i < |r.starts| ==>
              r.starts[i - 1] + s.initialRetryDelay <= r.starts[i] <= r.starts[i - 1] + s.maxRetryDelay
    ensures forall j :: 0 <= j < |r.starts| - 1 ==> IsRetryableFailure(OutcomeAt(script, j), retryableCodes)
    ensures r.result.Success? ==> OutcomeAt(script, |r.starts| - 1) == Returned(r.result.value)
    ensures r.result.Failure? ==>
              var o := OutcomeAt(script, |r.starts| - 1);
              o.Threw? && r.result.error == Classify(o.failure)
    ensures r.result.Failure? && IsRetryable(r.result.error, retryableCodes) ==>
              BudgetExhausted(s, After(s, Initial(s), |r.starts| - 1))
    ensures RetriedWithinBudget(s, Initial(s), r)
    ensures |r.rpcTimeouts| == |r.starts|
    ensures forall i :: 0 <= i < |r.starts| ==>
              r.starts[i] == After(s, Initial(s), i).elapsed && r.rpcTimeouts[i] == After(s, Initial(s), i).rpcTimeout
  {
    Run(s, retryableCodes, script, Initial(s))
  }
}

=== FILE: settings.dfy ===
/** Retry configuration and the per-call attempt state it drives. All durations are whole
    milliseconds on the caller's clock; multipliers are whole numbers. */
module Settings {

  /** Immutable retry configuration. `maxAttempts == 0` means the number of attempts is
      bounded only by `totalTimeout`. */
  datatype RetrySettings = RetrySettings(
    initialRetryDelay: nat,
    retryDelayMultiplier: nat,
    maxRetryDelay: nat,
    initialRpcTimeout: nat,
    rpcTimeoutMultiplier: nat,
    maxRpcTimeout: nat,
    totalTimeout: nat,
    maxAttempts: nat)
  {
    /** What the settings builder accepts: multipliers of at least one, and caps no
        smaller than the initial values they cap. */
    predicate Valid() {
      && retryDelayMultiplier >= 1
      && rpcTimeoutMultiplier >= 1
      && initialRetryDelay <= maxRetryDelay
      && initialRpcTimeout <= maxRpcTimeout
    }
  }

  /** The fast settings every retry scenario starts from: 2 ms delays and attempt
      timeouts that never grow, 10 ms in total, no attempt limit. */
  const FastRetrySettings: RetrySettings := RetrySettings(
    initialRetryDelay := 2, retryDelayMultiplier := 1, maxRetryDelay := 2,
    initialRpcTimeout := 2, rpcTimeoutMultiplier := 1, maxRpcTimeout := 2,
    totalTimeout := 10, maxAttempts := 0)

  /** The settings of a call configured with retryable codes only: everything zero. */
  const DefaultRetrySettings: RetrySettings := RetrySettings(
    initialRetryDelay := 0, retryDelayMultiplier := 1, maxRetryDelay := 0,
    initialRpcTimeout := 0, rpcTimeoutMultiplier := 1, maxRpcTimeout := 0,
    totalTimeout := 0, maxAttempts := 0)

  /** Java's `Integer.MAX_VALUE`, the delay of the huge-delay scenario. */
  const IntegerMaxValue: nat := 0x7fff_ffff

  function Min(a: nat, b: nat): (r: nat)
    ensures r <= a && r <= b && (r == a || r == b)
  {
    if a <= b then a else b
  }

  /** The state one resilient call keeps between attempts. `attemptCount` is the number
      of attempts already finished before the current one; `elapsed` is the fake clock
      measured from the first attempt's start; `retryDelay` grows without cap and is
      capped only when a delay is scheduled. */
  datatype AttemptState = AttemptState(attemptCount: nat, elapsed: nat, retryDelay: nat, rpcTimeout: nat)

  /** The state of the first attempt. */
  function Initial(s: RetrySettings): (st: AttemptState)
    requires s.Valid()
    ensures Consistent(s, st) && st.attemptCount == 0 && st.elapsed == 0
    ensures st.retryDelay == s.initialRetryDelay && st.rpcTimeout == s.initialRpcTimeout
  {
    AttemptState(0, 0, s.initialRetryDelay, s.initialRpcTimeout)
  }

  /** What holds of every state a call reaches. */
  predicate Consistent(s: RetrySettings, st: AttemptState) {
    && st.retryDelay >= s.initialRetryDelay
    && s.initialRpcTimeout <= st.rpcTimeout <= s.maxRpcTimeout
    && st.elapsed <= s.totalTimeout
    && (s.maxAttempts > 0 ==> st.attemptCount < s.maxAttempts)
  }

  /** The delay scheduled before the next attempt: the current delay, capped. */
  function NextDelay(s: RetrySettings, st: AttemptState): (d: nat)
    ensures d <= s.maxRetryDelay
    ensures s.Valid() && Consistent(s, st) ==> s.initialRetryDelay <= d
  {
    Min(st.retryDelay, s.maxRetryDelay)
  }

  /** No further attempt may start: the attempt limit is reached, the clock has already
      reached the total timeout (so a zero total timeout ends the call at its first
      failure), or the next attempt would start after the total timeout. */
  predicate BudgetExhausted(s: RetrySettings, st: AttemptState) {
    || (s.maxAttempts > 0 && st.attemptCount + 1 >= s.maxAttempts)
    || st.elapsed >= s.totalTimeout
    || st.elapsed + NextDelay(s, st) > s.totalTimeout
  }

  /** The state of the next attempt, once the scheduled delay has passed: the clock has
      moved by exactly that delay, the delay and the attempt timeout have grown by their
      multipliers, and the attempt timeout is capped. */
  function Advance(s: RetrySettings, st: AttemptState): (next: AttemptState)
    ensures next.attemptCount == st.attemptCount + 1
    ensures next.elapsed == st.elapsed + NextDelay(s, st)
    ensures next.retryDelay == st.retryDelay * s.retryDelayMultiplier
    ensures next.rpcTimeout == Min(st.rpcTimeout * s.rpcTimeoutMultiplier, s.maxRpcTimeout)
    ensures s.Valid() && Consistent(s, st) && !BudgetExhausted(s, st) ==> Consistent(s, next)
  {
    MultiplyGrows(st.retryDelay, s.retryDelayMultiplier);
    MultiplyGrows(st.rpcTimeout, s.rpcTimeoutMultiplier);
    AttemptState(
      st.attemptCount + 1,
      st.elapsed + NextDelay(s, st),
      st.retryDelay * s.retryDelayMultiplier,
      Min(st.rpcTimeout * s.rpcTimeoutMultiplier, s.maxRpcTimeout))
  }

  lemma MultiplyGrows(x: nat, m: nat)
    ensures m >= 1 ==> x * m >= x
  {
  }

  /** The state reached after `k` retries when no budget check intervenes; used to say
      how much budget a run of retries needs. */
  function After(s: RetrySettings, st: AttemptState, k: nat): (r: AttemptState)
    ensures r.attemptCount == st.attemptCount + k
    ensures r.elapsed >= st.elapsed
    decreases k
  {
    if k == 0 then st else After(s, Advance(s, st), k - 1)
  }

  /** `b` to the power `k`. */
  function Pow(b: nat, k: nat): (r: nat)
    ensures b >= 1 ==> r >= 1
  {
    if k == 0 then 1 else b * Pow(b, k - 1)
  }

  /** Taking `k + 1` steps is taking `k` steps and then one more. */
  lemma {:induction false} AfterStep(s: RetrySettings, st: AttemptState, k: nat)
    ensures After(s, st, k + 1) == Advance(s, After(s, st, k))
    decreases k
  {
    if k > 0 {
      AfterStep(s, Advance(s, st), k - 1);
    }
  }

  /** After `k` steps the uncapped delay has been multiplied `k` times. */
  lemma {:induction false} DelayAfter(s: RetrySettings, st: AttemptState, k: nat)
    ensures After(s, st, k).retryDelay == st.retryDelay * Pow(s.retryDelayMultiplier, k)
    decreases k
  {
    if k > 0 {
      var m := s.retryDelayMultiplier;
      var next := Advance(s, st);
      var p := Pow(m, k - 1);
      assert After(s, st, k) == After(s, next, k - 1);
      DelayAfter(s, next, k - 1);
      assert Pow(m, k) == m * p;
      MultiplyAssociates(st.retryDelay, m, p);
    }
  }

  /** After `k` steps the attempt timeout is the initial one multiplied `k` times, capped
      once: capping at every step gives the same value as capping at the end. */
  lemma {:induction false} TimeoutAfter(s: RetrySettings, st: AttemptState, k: nat)
    requires s.rpcTimeoutMultiplier >= 1 && st.rpcTimeout <= s.maxRpcTimeout
    ensures After(s, st, k).rpcTimeout == Min(st.rpcTimeout * Pow(s.rpcTimeoutMultiplier, k), s.maxRpcTimeout)
    decreases k
  {
    if k > 0 {
      var m := s.rpcTimeoutMultiplier;
      var next := Advance(s, st);
      var p := Pow(m, k - 1);
      var grown := st.rpcTimeout * m;
      assert After(s, st, k) == After(s, next, k - 1);
      TimeoutAfter(s, next, k - 1);
      assert Pow(m, k) == m * p;
      MultiplyAssociates(st.rpcTimeout, m, p);
      if grown > s.maxRpcTimeout {
        MultiplyGrows(s.maxRpcTimeout, p);
        MultiplyGrows(grown, p);
      }
    }
  }

  lemma MultiplyAssociates(a: nat, b: nat, c: nat)
    ensures (a * b) * c == a * (b * c)
  {
  }

  /** The backoff schedule of a call: before the `k`-th retry the delay scheduled is
      `min(initialRetryDelay * retryDelayMultiplier^k, maxRetryDelay)`, and attempt
      number `k` (from 0) carries the timeout
      `min(initialRpcTimeout * rpcTimeoutMultiplier^k, maxRpcTimeout)`. */
  lemma BackoffSchedule(s: RetrySettings, k: nat)
    requires s.Valid()
    ensures NextDelay(s, After(s, Initial(s), k)) ==
              Min(s.initialRetryDelay * Pow(s.retryDelayMultiplier, k), s.maxRetryDelay)
    ensures After(s, Initial(s), k).rpcTimeout ==
              Min(s.initialRpcTimeout * Pow(s.rpcTimeoutMultiplier, k), s.maxRpcTimeout)
  {
    DelayAfter(s, Initial(s), k);
    TimeoutAfter(s, Initial(s), k);
  }
}

=== FILE: status_codes.dfy ===
/** The transport-independent canonical status codes, their names, and the HTTP status each
    one corresponds to. */
module StatusCodes {

  /** Canonical status codes, in the order of the google.rpc.Code enumeration. */
  datatype Code =
    | Ok
    | Cancelled
    | Unknown
    | InvalidArgument
    | DeadlineExceeded
    | NotFound
    | AlreadyExists
    | PermissionDenied
    | ResourceExhausted
    | FailedPrecondition
    | Aborted
    | OutOfRange
    | Unimplemented
    | Internal
    | Unavailable
    | DataLoss
    | Unauthenticated

  /** The canonical spelling of a code, as it appears in structured error reasons. */
  function Name(c: Code): string {
    match c
    case Ok => "OK"
    case Cancelled => "CANCELLED"
    case Unknown => "UNKNOWN"
    case InvalidArgument => "INVALID_ARGUMENT"
    case DeadlineExceeded => "DEADLINE_EXCEEDED"
    case NotFound => "NOT_FOUND"
    case AlreadyExists => "ALREADY_EXISTS"
    case PermissionDenied => "PERMISSION_DENIED"
    case ResourceExhausted => "RESOURCE_EXHAUSTED"
    case FailedPrecondition => "FAILED_PRECONDITION"
    case Aborted => "ABORTED"
    case OutOfRange => "OUT_OF_RANGE"
    case Unimplemented => "UNIMPLEMENTED"
    case Internal => "INTERNAL"
    case Unavailable => "UNAVAILABLE"
    case DataLoss => "DATA_LOSS"
    case Unauthenticated => "UNAUTHENTICATED"
  }

  /** The HTTP status each canonical code corresponds to (the mapping published with
      google.rpc.Code); it is the transport code an HTTP/JSON status code carries. */
  function HttpStatusOf(c: Code): int {
    match c
    case Ok => 200
    case Cancelled => 499
    case Unknown => 500
    case InvalidArgument => 400
    case DeadlineExceeded => 504
    case NotFound => 404
    case AlreadyExists => 409
    case PermissionDenied => 403
    case ResourceExhausted => 429
    case FailedPrecondition => 400
    case Aborted => 409
    case OutOfRange => 400
    case Unimplemented => 501
    case Internal => 500
    case Unavailable => 503
    case DataLoss => 500
    case Unauthenticated => 401
  }

  /** The HTTP error statuses that have a canonical meaning. */
  const KnownHttpStatuses: set<int> := {400, 401, 403, 404, 409, 429, 499, 500, 501, 503, 504}
}

=== FILE: strings.dfy ===
/** Substring tests on opaque messages: the model never parses a message, it only asks
    whether one string occurs inside another. */
module Strings {

  /** `t` is a prefix of `s`. */
  predicate StartsWith(s: string, t: string) {
    |t| <= |s| && s[..|t|] == t
  }

  /** `t` occurs somewhere inside `s` (Java's `String.contains`). */
  predicate Contains(s: string, t: string)
    decreases |s|
  {
    StartsWith(s, t) || (|s| > 0 && Contains(s[1..], t))
  }

  /** An occurrence at a known offset is an occurrence. */
  lemma {:induction false} ContainsAt(s: string, t: string, i: nat)
    requires i + |t| <= |s| && s[i..i + |t|] == t
    ensures Contains(s, t)
    decreases i
  {
    if i == 0 {
      assert s[..|t|] == t;
    } else {
      assert s[1..][i - 1..i - 1 + |t|] == s[i..i + |t|];
      ContainsAt(s[1..], t, i - 1);
    }
  }

  /** Every occurrence sits at some offset: the converse of `ContainsAt`. */
  lemma {:induction false} ContainsWitness(s: string, t: string) returns (i: nat)
    requires Contains(s, t)
    ensures i + |t| <= |s| && s[i..i + |t|] == t
    ensures |t| > 0 ==> s[i] == t[0]
    decreases |s|
  {
    if StartsWith(s, t) {
      i := 0;
    } else {
      var j := ContainsWitness(s[1..], t);
      assert s[1..][j..j + |t|] == s[j + 1..j + 1 + |t|];
      i := j + 1;
    }
  }

  /** A string is only found in a string at least as long as itself. */
  lemma {:induction false} ContainsLength(s: string, t: string)
    requires Contains(s, t)
    ensures |t| <= |s|
  {
    var i := ContainsWitness(s, t);
  }

  /** When no character of `s` that could start an occurrence equals the first character
      of `t`, then `t` does not occur in `s`. */
  lemma {:induction false} NotContainsByFirstChar(s: string, t: string)
    requires |t| > 0
    requires forall k :: 0 <= k < |s| && k + |t| <= |s| ==> s[k] != t[0]
    ensures !Contains(s, t)
  {
    if Contains(s, t) {
      var i := ContainsWitness(s, t);
    }
  }

  /** Every string occurs in itself. */
  lemma ContainsSelf(s: string)
    ensures Contains(s, s)
  {
    assert StartsWith(s, s);
  }

  /** A string occurs in any string built around it. */
  lemma ContainsInMiddle(a: string, t: string, b: string)
    ensures Contains(a + t + b, t)
  {
    assert (a + t + b)[|a|..|a| + |t|] == t;
    ContainsAt(a + t + b, t, |a|);
  }
}

=== FILE: wrappers.dfy ===
/** Failure-compatible result types shared by the retrying call and the mTLS decision. */
module Wrappers {

  /** A value that may be absent; stands for a Java reference that may be null. */
  datatype Option<+T> = None | Some(value: T)

  /** Either a value or the failure that was raised instead of returning one. */
  datatype Result<+R, +E> = Success(value: R) | Failure(error: E)
}
